=== FILE: README.md ===
# right_st upload core, modelled in Dafny

`right_st` is a command-line tool for RightScale RightScripts. This project
models the part of it that decides what gets sent to the platform:

- **Pushing one script** (`RightScript.Push`). The tool lists the scripts
  with the script's name and keeps the one exact-name match at head revision
  (revision 0). With no match it creates the script; with one it updates it;
  with two or more it stops. It then lists the script's attachments and
  fingerprints the declared attachment files. Both sides are indexed by
  digest, and a later entry overwrites an earlier one. For each remote-only
  digest it deletes the one attachment the index kept (the last listed with
  that digest), and then it uploads the local-only digests. A digest present
  on both sides is left alone, even when its name differs. An earlier listed
  attachment with the same digest as a deleted one survives the push.
- **The delete target.** A delete goes to the href of the attachment's last
  `right_script` link, followed by `/attachments/` and the attachment's id.
- **Reading a NAME_OR_HREF argument** (`rightscriptParamToHref`). An all-digit
  argument is an id. An argument matching `/api/right_scripts/<digits>` is an
  href. Anything else is a name, resolved by the same exact-name,
  head-revision scan.
- **The `upload` command.** Pass one completes every file's metadata. A file
  without a name stops the command, unless `--force` is given; then the name
  comes from the file name. The code strips the extension with
  `strings.TrimRight`; the model of the command uses the corrected
  derivation (see Findings). Pass two pushes the scripts one after another and
  stops at the first failure.
- **Small text helpers.** These are the revision label ("HEAD" or the number),
  and Go's `strings.TrimRight`, `path.Base`, `path.Ext` and `%d`, plus
  `strings.TrimSuffix` for the corrected name derivation.

Everything the platform or the file system answers is an input:

- `ScriptPush.Env` bundles the script listing, the script source, the href a
  create returns, the attachment listing, the readable files, and whether the
  platform carries out each call.
- The content hash is a function parameter.
- Go map iteration order is an explicit order parameter, required to list
  each map key exactly once.

A push yields the sequence of events it issues (create, update, delete,
upload) and its result. What a script holds is a multiset of digests, one
copy per attachment: a delete removes the one attachment it targets, and an
upload adds one. Files:

- `wrappers.dfy`: `Option` and `Result`.
- `entities.dfy`: scripts, metadata, remote attachments, events and errors.
- `gotext.dfy`: the Go text and path helpers.
- `hrefs.dfy`: argument classification and revision labels.
- `resolution.dfy`: the head-revision scan and `rightscriptParamToHref`.
- `reconcile.dfy`: the indexes, the plan, the two passes, running events and their effect.
- `push.dfy`: `RightScript.Push`.
- `upload.dfy`: the `upload` command's two passes.

## Model

| member | source | states |
|---|---|---|
| GoText.TrimRight | main.go:153 | The result is a prefix of the input. Every removed character is in the cutset. The result is empty or does not end in a cutset character. |
| GoText.TrimRightUnique | main.go:153 | Those three properties fix the result: any prefix that has them equals `TrimRight`. |
| GoText.TrimRightVersusTrimSuffix | main.go:153 | If `s` ends in `suffix`, trimming the suffix's characters and trimming the suffix once agree iff the remaining stem is empty or does not end in one of the suffix's characters. |
| GoText.Ext | main.go:152 | The extension is empty, or it starts with '.', is a suffix of the path, and has no other '.' or '/'. It is empty only when the last path element has no '.'. |
| GoText.Base | main.go:151 | `path.Base`. `BaseShape` and `BaseIsLastElement` state its contract. |
| GoText.BaseShape | main.go:151 | The base of "" is "."; any other base is "/" or a slash-free name, and a slash-free path is its own base. |
| GoText.BaseIsLastElement | main.go:151 | The base of a non-empty path is "/" iff the path is all slashes. Otherwise it is the whole last element once trailing slashes are removed: a suffix that is all of the stripped path or follows a slash. |
| GoText.DecimalRoundTrip | main.go:94-97 | `%d` of a natural number is all digits with no leading zero, and reading it back gives the number. |
| GoText.IntRoundTrip | main.go:94-97 | `%d` of any integer (with a '-' for negatives) reads back to the same integer. |
| GoText.IntToDecimalInjective | main.go:466 | Different integers print differently. |
| Hrefs.Classify | main.go:237-243 | An all-digit argument is an id, and its href round-trips. An argument matching the href pattern is kept as is. Everything else is a name matching neither pattern. |
| Hrefs.DigitsAreNotHrefs | main.go:237-243 | No all-digit argument matches the href pattern, so the two patterns never overlap. |
| Hrefs.ScriptHrefRoundTrip | main.go:238-241 | Prefix plus id matches the href pattern iff the id is all digits. The id is then recovered from the href. |
| Hrefs.RevisionLabel | main.go:94-97 | The label is "HEAD" iff the revision is 0. |
| Hrefs.RevisionLabelRoundTrip | main.go:118-121 | Reading the label back gives the revision, so the label determines it. |
| Resolution.ScanFrom | main.go:251-263 | The name-lookup scan with the id kept so far: the first head match is kept, and a second one stops with both ids. `ScanFromCounts` compares it with the reference list of head matches, and `ScanFromSound` says where its ids come from. |
| Resolution.ScanFromCounts | main.go:251-263 | The scan with a kept id, compared with the reference list of exact-name head matches: it keeps the one match, clashes on a second match, or keeps what it had. |
| Resolution.ScanHeadCounts | main.go:387-397 | No head match keeps "", one keeps its id, and two or more clash naming the first two. |
| Resolution.ScanFromSound | main.go:252-263 | For any ids: a kept id, and the first id of a clash, is the starting id or the id of an exact-name head-revision candidate; the second id of a clash is always such a candidate's id. |
| Resolution.ParamToHref | main.go:234-270 | Every successful resolution is a `/api/right_scripts/` href. |
| Resolution.DirectParamsNeedNoLookup | main.go:240-243 | An id or href argument resolves to an href whatever the listing says. Resolving that href again returns it unchanged. |
| Resolution.NameLookupByCount | main.go:244-267 | A name resolves by head-match count: none is not-found, one is its href, two or more is ambiguous. A failed listing is reported. |
| Reconcile.LastWinsKeys | main.go:440-452 | The map filled in list order has exactly the entries' keys. |
| Reconcile.LastWinsValues | main.go:440-452 | Each key maps to the value of its last entry. |
| Reconcile.LastWinsKeepsLastEntry | main.go:440-452 | Keys and last-entry values together. |
| Reconcile.LocalIndexLaterWins | main.go:442-449 | The local index is keyed by the declared files' digests. A digest maps to the last declared name with that content. |
| Reconcile.RemoteIndexLaterWins | main.go:450-452 | The remote index is keyed by the listed digests. A digest maps to the last listed attachment with that digest. |
| Reconcile.Fingerprints | main.go:442-448 | Succeeds iff every declared file is readable, pairing each declaration in order with its content's digest. Otherwise it names the first unreadable file. |
| Reconcile.PlanOf | main.go:457-481 | Remote digests split into deleted and kept, local digests into uploaded and kept, all three disjoint. Equal key sets leave nothing to do. |
| Reconcile.ScanLinksKeepsLast | main.go:460-465 | The link loop ends with the href of the last `right_script` link, or what it started with if there is none. |
| Reconcile.OwningScriptHrefIsLastScriptLink | main.go:460-465 | The owning-script href is the last `right_script` link's href, or "" if there is none. |
| Reconcile.DeleteTarget | main.go:460-466 | The delete href: the owning script's href, then `/attachments/`, then the decimal id. `DeleteTargetsDistinct` and `OwningScriptHrefIsLastScriptLink` state its contract. |
| Reconcile.DeleteTargetsDistinct | main.go:466 | Under one script, two attachments share a delete target iff they share an id. The target ends in `/attachments/<id>`. |
| Reconcile.DeletePass | main.go:457-474 | The first pass over the remote index in a given order. `DeletePassEvents`, `DeletePassDigests` and `DeletePassEffect` state what it issues and what it removes. |
| Reconcile.DeletePassEvents | main.go:457-474 | The first pass issues only deletes, of remote digests missing locally, each at its owning-script target, no digest twice. |
| Reconcile.DeletePassDigests | main.go:457-474 | The first pass deletes exactly the iterated digests that are not local. |
| Reconcile.DeletePassDeletes | main.go:457-469 | Every iterated digest that is not local gets a delete at its owning-script target. |
| Reconcile.DeletePassActs | main.go:457-474 | Both properties of the first pass together. |
| Reconcile.UploadPass | main.go:478-497 | The second pass over the local index in a given order. `UploadPassEvents`, `UploadPassDigests` and `UploadPassEffect` state what it issues and what it adds. |
| Reconcile.UploadPassEvents | main.go:478-497 | The second pass issues only uploads, of local digests missing remotely, each under the base of its declared name, no digest twice. |
| Reconcile.UploadPassDigests | main.go:478-497 | The second pass uploads exactly the iterated digests that are not remote. |
| Reconcile.UploadPassUploads | main.go:478-492 | Every iterated digest that is not remote gets an upload under the base of its declared name. |
| Reconcile.UploadPassActs | main.go:478-497 | Both properties of the second pass together. |
| Reconcile.PlannedEvents | main.go:454-497 | Both passes, deletes then uploads. `PlanIsRealized` matches it against `PlanOf` for every iteration order, and `PlanEffect` gives its effect. |
| Reconcile.PlanIsRealized | main.go:454-497 | For any iteration orders: deletes are exactly the remote-only digests, uploads exactly the local-only ones. Kept digests get no event, renamed or not. No digest is acted on twice, and every delete precedes every upload. |
| Reconcile.Apply | main.go:469-472 | Events go out in order until one is refused, and that one is the last issued. Everything before it was carried out. Nothing is undone. |
| Reconcile.ApplySucceedsIffAllAccepted | main.go:469-495 | Carrying out a plan succeeds iff the platform accepts every event. |
| Reconcile.ApplyStopsAtFirstRefusal | main.go:469-495 | With the k-th event the first refused, exactly the events up to and including it are issued and it is reported. |
| Reconcile.DeletePassEffect | main.go:457-474 | Carrying out the first pass removes one attachment for each iterated digest that is not local. |
| Reconcile.UploadPassEffect | main.go:478-497 | Carrying out the second pass adds one attachment for each iterated digest that is not remote. |
| Reconcile.PlanEffect | main.go:454-497 | Carrying out the whole plan removes one attachment per remote-only digest and adds one per local-only digest, whatever the script held. |
| Reconcile.DistinctIsSet | main.go:450-452 | A sequence repeats no digest iff its multiset is its set. |
| Reconcile.ListingMatchesIndex | main.go:450-452 | The remote index has a key per listed digest. The listing holds one attachment per key iff no digest is listed twice. |
| Reconcile.ReconcileConverges | main.go:454-497 | On a listing that repeats no digest, carrying out the plan leaves exactly one attachment per local digest. |
| Reconcile.DuplicateDigestSurvives | main.go:450-469 | A non-local digest listed twice loses only the attachment the index kept: one copy fewer remains, so the script does not end up holding exactly the local digests. |
| Reconcile.DeletePassSkipsLocal | main.go:457-458 | A first pass over digests that are all local issues nothing. |
| Reconcile.UploadPassSkipsRemote | main.go:478-481 | A second pass over digests that are all remote issues nothing. |
| Reconcile.NothingToDoWhenInSync | main.go:454-497 | Equal digest sets on both sides produce no event. |
| Reconcile.SecondRunIsEmpty | main.go:454-497 | After a complete run on a listing that repeats no digest, the resulting listing repeats none either, and a second run against it issues nothing, in any iteration order. |
| Reconcile.SecondRunDeletesSurvivor | main.go:450-474 | When a non-local digest was listed twice, the second run deletes the surviving copy: the push is not idempotent on such a listing. |
| Reconcile.ChangedContentIsReplaced | main.go:454-456 | A file whose content changed has its stale digest's attachment deleted before the current content is uploaded. |
| ScriptPush.UpsertAsWritten | main.go:404-431 | The create-or-update step as written. `FailedCreateDereferencesNil` shows a refused create dereferences nil, and that the step agrees with `Upsert` everywhere else. |
| ScriptPush.Upsert | main.go:404-431 | No kept id means a create, otherwise an update of that id's href. The step succeeds iff the platform does, and then yields the created or updated href. A refusal reports the failed call and nothing is dereferenced. |
| ScriptPush.FailedCreateDereferencesNil | main.go:413-414 | As written, a failed create reads the nil locator's href. The corrected step reports the failure instead, and the two agree everywhere else. |
| ScriptPush.AmbiguousPushIssuesNothing | main.go:387-397 | Two head revisions with the name stop the push with the first two ids, before any create, update, delete or upload. |
| ScriptPush.PushCreatesOrUpdates | main.go:399-427 | With a readable source, no head match makes the first event a create. One match makes it an update of that match's href. |
| ScriptPush.Push | main.go:379-500 | One script's push: list, scan, read the source, create or update, list attachments, fingerprint, then both passes. `PushReportsFailedStep`, `PushSucceedsIffAllStepsSucceed` and `PushReportsFirstRefusal` state what it returns; `PushUnfolds`, `PushTraceShape`, `PushCreatesOrUpdates`, `AmbiguousPushIssuesNothing` and `SuccessfulPushEffect` state what it issues. |
| ScriptPush.PushUnfolds | main.go:379-500 | The first event is never an attachment event. Attachment events come only after both listings and all fingerprints succeeded, and are what `Apply` issues of the plan. An unreadable attachment ends the push after at most the script call. |
| ScriptPush.PushPlanShape | main.go:454-497 | The plan of a push holds only attachment events, deletes first. |
| ScriptPush.PushReportsFailedStep | main.go:383-448 | A push that fails before the attachment events reports the failed step: listing failed, ambiguous name with both ids, unreadable script, refused create or update, failed attachment listing under the script's href, or the first unreadable attachment. It has issued at most the create or update. |
| ScriptPush.PushSucceedsIffAllStepsSucceed | main.go:379-500 | A push succeeds iff every step before the attachment events succeeds and the platform accepts every planned delete and upload. It then returns the script's href, having issued the create or update and the whole plan. |
| ScriptPush.PushReportsFirstRefusal | main.go:466-497 | When the steps before the attachment events succeed, the first refused delete or upload is the reported error and the last event issued. |
| ScriptPush.PushTraceShape | main.go:379-500 | Every trace is at most one script call, then a prefix of the plan with deletes before uploads. An unreadable attachment stops before any delete or upload. Success means the whole plan was carried out, every call accepted. |
| ScriptPush.SuccessfulPushEffect | main.go:433-499 | A successful push removes one attachment per remote-only digest and adds one per local-only digest, whatever the listing held. |
| ScriptPush.SuccessfulPushConverges | main.go:433-499 | On a listing that repeats no digest, a successful push leaves exactly one attachment per declared content's digest. |
| Upload.FallbackName | main.go:151-154 | The derived name followed by the base name's extension is the base name: the extension is removed exactly once. |
| Upload.FallbackNameAsWritten | main.go:151-153 | The --force name as the code derives it, trimming the extension's characters. `FallbackNameAsWrittenShape`, `CutsetStripsIntoStem` and `StemEatenByCutset` state its contract. |
| Upload.FallbackNameAsWrittenShape | main.go:151-153 | As written, the derived name is a prefix of the base name with extension characters stripped. It equals the intended name iff that name is empty or does not end in an extension character. |
| Upload.CutsetStripsIntoStem | main.go:151-153 | Whenever the intended name ends in a character of the extension, the name as written is strictly shorter: it loses part of the stem. |
| Upload.StemEatenByCutset | main.go:153 | "hash.sh" becomes "ha" as written and "hash" as intended. |
| Upload.Prepare | main.go:147-158 | Fails iff there is no name and no --force, naming the file. Otherwise it keeps the path, description and attachments, and uses the declared name or the derived one. |
| Upload.PrepareAll | main.go:138-161 | Pass one succeeds iff every file does, giving each file's script in order. A failure is a missing name. |
| Upload.PrepareAllReportsFirstMissing | main.go:147-150 | A refused pass one names the first file without a name. |
| Upload.RunBatchAllSucceed | main.go:163-169 | When every push succeeds, the batch reports every href in order and its trace is all the pushes' traces in order. |
| Upload.RunBatchStopsAtFirstFailure | main.go:163-169 | With a failing push, the batch reports the first failure's error. Its trace ends with that push's events, and later pushes issue nothing. |
| Upload.PushAllStopsAtFirstFailure | main.go:163-169 | The same for the pushes of concrete scripts. |
| Upload.UploadCommand | main.go:129-169 | The whole command: pass one, then pass two. `MissingNameStopsBeforeAnyCall`, `UploadCommandPushesPrepared`, `UploadCommandAllSucceed` and `UploadCommandStopsAtFirstFailure` state its contract. |
| Upload.UploadCommandPushesPrepared | main.go:138-169 | Under --force pass one always succeeds. Once it succeeds, the command is pass two over the prepared scripts. |
| Upload.UploadCommandAllSucceed | main.go:163-169 | When every file is prepared and every push succeeds, the command reports every href in file order, and its events are the pushes' events one after another. |
| Upload.UploadCommandStopsAtFirstFailure | main.go:163-169 | When every file is prepared, the first failed push ends the command with that push's error, and no later script issues anything. |
| Upload.MissingNameStopsBeforeAnyCall | main.go:138-169 | Without --force, the first file without a name stops the command before any platform call, naming that file. |

## Left out

- The command line, logging, configuration and the printing done by `list`, `show` and `download`. Only the href and revision-label logic of those commands is modelled.
- HTTP and the platform client. Each request's answer is a field of `ScriptPush.Env`. Whether the platform carries out an update, delete or upload is the predicate `accepts`.
- MD5 itself. The content hash is a function parameter.
- `walkPaths`, opening the script file in pass one, and the metadata parser. The parsed metadata of each file is an input.
- Joining attachment names with the script's directory. Files are looked up by declared name.
- Reopening an attachment file just before its upload (main.go:485-488). A failure there is folded into the platform refusing that upload.
- Go's map iteration order. The orders are parameters, and every property is proved for all of them.
- Error message texts. Errors are constructors carrying the values the messages mention.
- `fatalError` exits the process. It is modelled as an error result after which nothing more is issued.
- Going on to the next script after a failed push. The code calls `fatalError` at the first failed push (main.go:164-168), so the modelled batch stops there.
- The scan uses "" to mean "nothing kept yet", as the code does. A head match whose id is "" is therefore invisible while nothing is kept yet. After an id is kept, such a match is reported as the second id of a clash (main.go:257-258). `ScanFromSound` holds for all ids.
- Resolution.ScanFromCounts: stated only for listings whose matching ids are non-empty, because of the "" sentinel.
- Resolution.ScanHeadCounts: stated only for listings whose matching ids are non-empty, because of the "" sentinel.
- Resolution.NameLookupByCount: stated only for listings whose matching ids are non-empty, because of the "" sentinel.
- ScriptPush.AmbiguousPushIssuesNothing: stated only for listings whose matching ids are non-empty, because of the "" sentinel.
- ScriptPush.PushCreatesOrUpdates: stated only for listings whose matching ids are non-empty, because of the "" sentinel.
- Upload.Prepare: under --force it derives the name with the corrected `FallbackName` (the extension removed once), not with the `strings.TrimRight` of main.go:153. `UploadCommand` and everything after pass one therefore see "hash" where the code would look up and push "ha". The code's derivation is `FallbackNameAsWritten`; see Findings.
- ScriptPush.Push: the create-or-update step is the corrected `Upsert`, so a refused create ends the push with an error. The code dereferences the nil locator at main.go:414 and would crash; that step is `UpsertAsWritten`, see Findings.
- Reconcile.ReconcileConverges: stated only for attachment listings that repeat no digest. With a repeat, the code deletes only the attachment its index kept, and `DuplicateDigestSurvives` shows a copy survives.
- Reconcile.SecondRunIsEmpty: stated only for attachment listings that repeat no digest. With a repeat, `SecondRunDeletesSurvivor` shows the second run is not empty.
- ScriptPush.SuccessfulPushConverges: stated only for attachment listings that repeat no digest. `SuccessfulPushEffect` gives the effect for every listing.
- Which attachment of a repeated digest survives. The held state counts copies of each digest and does not track attachment ids.
- Resolution.ParamToHref: its own contract only states the href shape. The by-kind behaviour is in `DirectParamsNeedNoLookup` and `NameLookupByCount`.

## Findings

| source | as written | input that shows it | evidently intended | confidence | as-written member | corrected member |
|---|---|---|---|---|---|---|
| main.go:153 | `strings.TrimRight(name, ext)` strips every trailing character that occurs in the extension | file `hash.sh` gets the name "ha" | strip the extension once (`strings.TrimSuffix`), giving "hash" | not executed; high | Upload.StemEatenByCutset | Upload.FallbackName |
| main.go:413-414 | the locator returned by a failed create is dereferenced for the progress message before `err` is checked | no head match, create refused | report the create error | not executed; medium, relies on the client returning a nil locator with the error, and the client is not part of this model | ScriptPush.FailedCreateDereferencesNil | ScriptPush.Upsert |

=== FILE: entities.dfy ===
/** The records the upload command works on: local script metadata, the
    remote platform's script summaries and attachments, the events the push
    issues against the platform, and the errors it can end with. */
module Entities {

  /** A content fingerprint (the hex MD5 string in the program). */
  type Digest = string

  type Byte = bv8

  /** One entry of an attachment's relation list; a missing key reads as "". */
  type Link = map<string, string>

  /** An attachment as listed by the platform for one script. */
  datatype RemoteAttachment = RemoteAttachment(id: int, name: string, digest: Digest, links: seq<Link>)

  /** One entry of the script index; revision 0 is the head revision. */
  datatype ScriptSummary = ScriptSummary(id: string, name: string, revision: int)

  /** The embedded metadata of a local script file. */
  datatype Metadata = Metadata(name: string, description: string, attachments: seq<string>)

  /** A script queued for upload: the file path and its (possibly completed) metadata. */
  datatype Script = Script(path: string, metadata: Metadata)

  /** A mutating call issued against the platform. */
  datatype Event =
    | CreateScript(name: string, description: string, source: seq<Byte>)
    | UpdateScript(href: string, name: string, description: string, source: seq<Byte>)
    | DeleteAttachment(target: string, digest: Digest)
    | UploadAttachment(uploadName: string, digest: Digest)
  {
    predicate IsAttachmentEvent() {
      DeleteAttachment? || UploadAttachment?
    }
  }

  datatype Error =
    | IndexFailed                                   // the script index request failed
    | AmbiguousTarget(first: string, second: string) // two head revisions share the name
    | NotFound(name: string)                        // no head revision has the name
    | SourceUnreadable(path: string)                // the script file could not be read
    | AttachmentIndexFailed(href: string)           // the attachment listing failed
    | Unreadable(attachment: string)                // an attachment file could not be hashed
    | RemoteFailed(event: Event)                    // the platform refused a mutating call
    | MissingMetadata(path: string)                 // no name and no --force
}

=== FILE: gotext.dfy ===
/** The pieces of Go's standard library the modelled code calls, over strings
    as sequences of runes: decimal formatting (`%d`), `strings.TrimRight`,
    `path.Base` and `path.Ext`; and `strings.TrimSuffix`, which the corrected
    name derivation of the upload command uses. */
module GoText {
  import opened Wrappers

  predicate IsDigit(c: char) {
    '0' <= c <= '9'
  }

  /** Every character is an ASCII digit (the empty string qualifies). */
  predicate AllDigits(s: string) {
    forall i :: 0 <= i < |s| ==> IsDigit(s[i])
  }

  /** What the regular expression `^\d+$` accepts: one or more ASCII digits. */
  predicate IsDigits(s: string) {
    |s| > 0 && AllDigits(s)
  }

  function DigitChar(d: nat): (c: char)
    requires d < 10
    ensures IsDigit(c)
  {
    ('0' as int + d) as char
  }

  function DigitValue(c: char): (d: nat)
    requires IsDigit(c)
    ensures d < 10 && DigitChar(d) == c
  {
    c as int - '0' as int
  }

  /** `%d` of a non-negative integer. */
  function NatToDecimal(n: nat): (digits: string)
    decreases n
  {
    if n < 10 then [DigitChar(n)] else NatToDecimal(n / 10) + [DigitChar(n % 10)]
  }

  /** The value of a digit string read most significant digit first. */
  function DecimalValue(s: string): (value: nat)
    requires AllDigits(s)
  {
    if |s| == 0 then 0 else DecimalValue(s[..|s| - 1]) * 10 + DigitValue(s[|s| - 1])
  }

  /** The decimal form is a non-empty digit string without a leading zero,
      and reading it back gives the number. */
  lemma {:induction false} DecimalRoundTrip(n: nat)
    ensures IsDigits(NatToDecimal(n))
    ensures NatToDecimal(n)[0] == '0' ==> n == 0
    ensures DecimalValue(NatToDecimal(n)) == n
    decreases n
  {
    if n >= 10 {
      DecimalRoundTrip(n / 10);
      var s := NatToDecimal(n);
      var p := NatToDecimal(n / 10);
      assert s == p + [DigitChar(n % 10)];
      assert s[..|s| - 1] == p;
    }
  }

  /** `%d` of any integer: a minus sign before the magnitude when negative. */
  function IntToDecimal(i: int): (shown: string)
  {
    if i < 0 then "-" + NatToDecimal(-i) else NatToDecimal(i)
  }

  /** Reads a string produced by `%d`: an optional minus sign and digits. */
  function ParseInt(s: string): (parsed: Option<int>)
  {
    if |s| > 0 && s[0] == '-' && IsDigits(s[1..]) then Some(-(DecimalValue(s[1..]) as int))
    else if IsDigits(s) then Some(DecimalValue(s))
    else None
  }

  /** Formatting with `%d` loses nothing: parsing the text gives the integer back. */
  lemma IntRoundTrip(i: int)
    ensures ParseInt(IntToDecimal(i)) == Some(i)
  {
    if i < 0 {
      DecimalRoundTrip(-i);
      assert IntToDecimal(i)[1..] == NatToDecimal(-i);
    } else {
      DecimalRoundTrip(i);
    }
  }

  /** Distinct integers print differently. */
  lemma IntToDecimalInjective(i: int, j: int)
    ensures IntToDecimal(i) == IntToDecimal(j) ==> i == j
  {
    IntRoundTrip(i);
    IntRoundTrip(j);
  }

  /** `strings.TrimRight(s, cutset)`: drops trailing characters while they
      belong to the cutset. The result is the prefix of `s` whose removed tail
      lies wholly in the cutset and whose own last character does not. */
  function TrimRight(s: string, cutset: string): (r: string)
    ensures r <= s
    ensures r == [] || r[|r| - 1] !in cutset
    ensures forall i :: |r| <= i < |s| ==> s[i] in cutset
    decreases |s|
  {
    if |s| > 0 && s[|s| - 1] in cutset then TrimRight(s[..|s| - 1], cutset) else s
  }

  /** The three properties above pin the result down: no other prefix has them. */
  lemma TrimRightUnique(s: string, cutset: string, p: string)
    requires p <= s
    requires p == [] || p[|p| - 1] !in cutset
    requires forall i :: |p| <= i < |s| ==> s[i] in cutset
    ensures p == TrimRight(s, cutset)
  {
    var r := TrimRight(s, cutset);
    assert |p| == |r|;
  }

  predicate HasSuffix(s: string, suffix: string) {
    |suffix| <= |s| && s[|s| - |suffix|..] == suffix
  }

  /** `strings.TrimSuffix(s, suffix)`: removes the suffix once, if present. */
  function TrimSuffix(s: string, suffix: string): (r: string)
    ensures HasSuffix(s, suffix) ==> r + suffix == s
    ensures !HasSuffix(s, suffix) ==> r == s
  {
    if HasSuffix(s, suffix) then s[..|s| - |suffix|] else s
  }

  /** Trimming a suffix's characters and trimming the suffix itself agree
      exactly when what precedes the suffix is empty or does not end in one of
      its characters. */
  lemma TrimRightVersusTrimSuffix(s: string, suffix: string)
    requires HasSuffix(s, suffix)
    ensures var stem := TrimSuffix(s, suffix);
      TrimRight(s, suffix) == stem <==> stem == [] || stem[|stem| - 1] !in suffix
  {
    var stem := TrimSuffix(s, suffix);
    if stem == [] || stem[|stem| - 1] !in suffix {
      assert stem <= s;
      forall i | |stem| <= i < |s| ensures s[i] in suffix {
        assert s[i] == suffix[i - |stem|];
      }
      TrimRightUnique(s, suffix, stem);
    }
  }

  /** `path.Ext(p)`: the suffix of the last slash-separated element starting
      at its final dot, or "" when that element has no dot. */
  function Ext(p: string): (e: string)
    ensures e == "" || (e[0] == '.' && HasSuffix(p, e))
    ensures forall k :: 1 <= k < |e| ==> e[k] != '.' && e[k] != '/'
    ensures e == "" ==> '.' !in AfterLastSlash(p)
    decreases |p|
  {
    if |p| == 0 || p[|p| - 1] == '/' then ""
    else if p[|p| - 1] == '.' then "."
    else
      var e := Ext(p[..|p| - 1]);
      if e == "" then "" else e + [p[|p| - 1]]
  }

  /** The characters after the last slash of `s`. */
  function AfterLastSlash(s: string): (r: string)
    ensures HasSuffix(s, r) && '/' !in r
    ensures |r| < |s| ==> s[|s| - |r| - 1] == '/'
  {
    if |s| == 0 || s[|s| - 1] == '/' then ""
    else AfterLastSlash(s[..|s| - 1]) + [s[|s| - 1]]
  }

  /** `path.Base(p)`: the last element of a slash-separated path after
      trailing slashes are stripped; "." for "" and "/" for all-slash paths. */
  function Base(p: string): (base: string)
  {
    if p == "" then "."
    else
      var t := TrimRight(p, "/");
      if t == "" then "/" else AfterLastSlash(t)
  }

  /** The base of "" is "."; otherwise it is the root "/" or a slash-free
      name. A bare element is its own base. */
  lemma BaseShape(p: string)
    ensures p == "" ==> Base(p) == "."
    ensures Base(p) != ""
    ensures Base(p) == "/" || '/' !in Base(p)
    ensures p != "" && '/' !in p ==> Base(p) == p
  {
    if p != "" {
      var t := TrimRight(p, "/");
      if '/' !in p {
        assert t == p;
        NoSlashIsOwnTail(p);
      }
    }
  }

  /** The base of a non-empty path is the root "/" exactly when the path is
      all slashes; otherwise it is the whole last element: a suffix of the
      slash-stripped path that is either all of it or is preceded by a slash. */
  lemma BaseIsLastElement(p: string)
    requires p != ""
    ensures Base(p) == "/" <==> TrimRight(p, "/") == ""
    ensures Base(p) != "/" ==> HasSuffix(TrimRight(p, "/"), Base(p))
    ensures Base(p) != "/" ==>
              var t := TrimRight(p, "/"); |Base(p)| == |t| || t[|t| - |Base(p)| - 1] == '/'
  {
    var t := TrimRight(p, "/");
    if t == "" {
      assert Base(p) == "/";
    } else {
      assert t[|t| - 1] != '/';
      var b := AfterLastSlash(t);
      assert Base(p) == b;
      assert |b| > 0 && '/' !in b;
    }
  }

  lemma {:induction false} NoSlashIsOwnTail(s: string)
    requires '/' !in s
    ensures AfterLastSlash(s) == s
    decreases |s|
  {
    if |s| > 0 {
      assert '/' !in s[..|s| - 1];
      NoSlashIsOwnTail(s[..|s| - 1]);
    }
  }
}

=== FILE: hrefs.dfy ===
/** How the `show` and `download` commands read their NAME_OR_HREF argument,
    and how scripts' revisions are labelled in listings. */
module Hrefs {
  import opened Wrappers
  import opened GoText

  const ScriptsPrefix: string := "/api/right_scripts/"

  /** The href of the script with the given id. */
  function ScriptHref(id: string): (href: string) {
    ScriptsPrefix + id
  }

  /** What `^/api/right_scripts/\d+$` accepts. */
  predicate IsScriptHref(s: string) {
    |s| > |ScriptsPrefix| && s[..|ScriptsPrefix|] == ScriptsPrefix && IsDigits(s[|ScriptsPrefix|..])
  }

  /** The id part of a script href. */
  function HrefId(href: string): (id: string)
    requires IsScriptHref(href)
  {
    href[|ScriptsPrefix|..]
  }

  /** How an argument is read: a bare id, a complete href, or a name to look up. */
  datatype Param = ById(id: string) | ByHref(href: string) | ByName(name: string)

  /** An all-digit argument is an id, an argument matching the href pattern is
      used as is, anything else is a name; the two patterns never overlap and
      no lookup is implied by the first two. */
  function Classify(param: string): (k: Param)
    ensures k.ById? ==> k.id == param && IsScriptHref(ScriptHref(param)) && HrefId(ScriptHref(param)) == param
    ensures k.ByHref? ==> k.href == param && IsScriptHref(param) && ScriptHref(HrefId(param)) == param
    ensures k.ByName? ==> k.name == param && !IsDigits(param) && !IsScriptHref(param)
    ensures IsDigits(param) ==> k.ById?
    ensures IsScriptHref(param) ==> k.ByHref?
  {
    if IsDigits(param) then
      DigitsAreNotHrefs(param);
      ScriptHrefRoundTrip(param);
      ById(param)
    else if IsScriptHref(param) then ByHref(param)
    else ByName(param)
  }

  /** An href starts with a slash, so no all-digit argument is one. */
  lemma DigitsAreNotHrefs(s: string)
    requires IsDigits(s)
    ensures !IsScriptHref(s)
  {
    assert IsDigit(s[0]);
    assert |s| > |ScriptsPrefix| ==> s[..|ScriptsPrefix|][0] == s[0];
  }

  /** An href is made of the prefix and an all-digit id, and only of that. */
  lemma ScriptHrefRoundTrip(id: string)
    ensures IsScriptHref(ScriptHref(id)) <==> IsDigits(id)
    ensures IsScriptHref(ScriptHref(id)) ==> HrefId(ScriptHref(id)) == id
  {
    assert ScriptHref(id)[..|ScriptsPrefix|] == ScriptsPrefix;
    assert ScriptHref(id)[|ScriptsPrefix|..] == id;
  }

  /** The label shown for a revision: "HEAD" for revision 0, else the number. */
  function RevisionLabel(revision: int): (shown: string)
    ensures shown == "HEAD" <==> revision == 0
  {
    if revision == 0 then "HEAD"
    else
      IntRoundTrip(revision);
      assert !IsDigits("HEAD") by { assert !IsDigit("HEAD"[0]); }
      IntToDecimal(revision)
  }

  /** Reads a revision label back. */
  function ParseRevisionLabel(shown: string): (revision: Option<int>)
  {
    if shown == "HEAD" then Some(0) else ParseInt(shown)
  }

  /** The label determines the revision. */
  lemma RevisionLabelRoundTrip(revision: int)
    ensures ParseRevisionLabel(RevisionLabel(revision)) == Some(revision)
  {
    IntRoundTrip(revision);
  }
}

=== FILE: push.dfy ===
/** `RightScript.Push`: resolve the script by exact name at head revision,
    create or update it, list its attachments, fingerprint the declared
    attachment files, then delete and upload attachments. Every answer of the
    platform and the file system is an input, gathered in `Env`. */
module ScriptPush {
  import opened Wrappers
  import opened Entities
  import opened Hrefs
  import opened Resolution
  import opened Reconcile

  /** What the surroundings answer during one push. */
  datatype Env = Env(
    listing: Option<seq<ScriptSummary>>,        // name-filtered script index; None if the request failed
    source: Option<seq<Byte>>,                  // the script file's bytes; None if unreadable
    created: Option<string>,                    // href answered by a create call; None if it failed
    attachments: Option<seq<RemoteAttachment>>, // the script's attachment listing; None if it failed
    files: map<string, seq<Byte>>,              // readable attachment files, by declared name
    hash: seq<Byte> -> Digest,                  // the content fingerprint
    accepts: Event -> bool,                     // whether the platform carries out an update, delete or upload
    remoteOrder: seq<Digest>,                   // iteration order of the remote index
    localOrder: seq<Digest>)                    // iteration order of the local index

  /** The iteration orders are orders of the indexes the push builds. */
  predicate Coherent(s: Script, env: Env) {
    && (env.attachments.Some? ==> IsEnumeration(env.remoteOrder, RemoteIndex(env.attachments.value).Keys))
    && (var fps := Fingerprints(s.metadata.attachments, env.files, env.hash);
        fps.Ok? ==> IsEnumeration(env.localOrder, LocalIndex(fps.value).Keys))
  }

  /** How the create-or-update step ends. */
  datatype UpsertStep = Upserted(href: string) | Rejected(error: Error) | NilDereference

  function CreateEvent(s: Script, source: seq<Byte>): (e: Event) {
    CreateScript(s.metadata.name, s.metadata.description, source)
  }

  function UpdateEvent(s: Script, source: seq<Byte>, found: string): (e: Event) {
    UpdateScript(ScriptHref(found), s.metadata.name, s.metadata.description, source)
  }

  /** The step as written: a failed create leaves the locator nil, and its
      href is read for the progress message before the error is looked at. */
  function UpsertAsWritten(s: Script, source: seq<Byte>, found: string, env: Env): (r: (Event, UpsertStep)) {
    if found == "" then
      (CreateEvent(s, source), if env.created.Some? then Upserted(env.created.value) else NilDereference)
    else
      var e := UpdateEvent(s, source, found);
      (e, if env.accepts(e) then Upserted(ScriptHref(found)) else Rejected(RemoteFailed(e)))
  }

  /** The step as intended: with no kept id the script is created, otherwise
      the head revision with that id is updated; a refusal is reported as the
      failed call and nothing is dereferenced. */
  function Upsert(s: Script, source: seq<Byte>, found: string, env: Env): (r: (Event, UpsertStep))
    ensures !r.1.NilDereference?
    ensures found == "" ==> r.0 == CreateScript(s.metadata.name, s.metadata.description, source)
    ensures found != "" ==> r.0 == UpdateScript(ScriptsPrefix + found, s.metadata.name, s.metadata.description, source)
    ensures r.1.Upserted? <==> (if found == "" then env.created.Some? else env.accepts(r.0))
    ensures r.1.Upserted? ==> r.1.href == (if found == "" then env.created.value else ScriptsPrefix + found)
    ensures r.1.Rejected? ==> r.1.error == RemoteFailed(r.0)
  {
    if found == "" then
      var e := CreateEvent(s, source);
      (e, if env.created.Some? then Upserted(env.created.value) else Rejected(RemoteFailed(e)))
    else
      var e := UpdateEvent(s, source, found);
      (e, if env.accepts(e) then Upserted(ScriptHref(found)) else Rejected(RemoteFailed(e)))
  }

  /** The two agree except on a failed create, where the code as written
      dereferences the nil locator. */
  lemma FailedCreateDereferencesNil(s: Script, source: seq<Byte>, found: string, env: Env)
    ensures found == "" && env.created.None? ==> UpsertAsWritten(s, source, found, env).1 == NilDereference
    ensures found == "" && env.created.None? ==> Upsert(s, source, found, env).1 == Rejected(RemoteFailed(CreateEvent(s, source)))
    ensures !(found == "" && env.created.None?) ==> UpsertAsWritten(s, source, found, env) == Upsert(s, source, found, env)
  {
  }

  /** The events issued against the platform and how the push ended (the
      script's href on success). */
  datatype PushOutcome = PushOutcome(trace: seq<Event>, result: Result<string, Error>)

  function Push(s: Script, env: Env): (o: PushOutcome)
    requires Coherent(s, env)
  {
    match env.listing
    case None => PushOutcome([], Err(IndexFailed))
    case Some(cands) =>
      match ScanHead(cands, s.metadata.name)
      case Clash(first, second) => PushOutcome([], Err(AmbiguousTarget(first, second)))
      case Found(found) =>
        match env.source
        case None => PushOutcome([], Err(SourceUnreadable(s.path)))
        case Some(source) =>
          var (e, step) := Upsert(s, source, found, env);
          if !step.Upserted? then PushOutcome([e], Err(step.error))
          else
            match env.attachments
            case None => PushOutcome([e], Err(AttachmentIndexFailed(step.href + "/attachments")))
            case Some(atts) =>
              match Fingerprints(s.metadata.attachments, env.files, env.hash)
              case Err(err) => PushOutcome([e], Err(err))
              case Ok(fps) =>
                var run := Apply(PlannedEvents(LocalIndex(fps), RemoteIndex(atts), env.remoteOrder, env.localOrder), env.accepts);
                PushOutcome([e] + run.issued,
                            if run.failure.Some? then Err(RemoteFailed(run.failure.value)) else Ok(step.href))
  }

  /** The attachment events a successful listing and fingerprinting plan. */
  function PushPlan(s: Script, env: Env): (plan: seq<Event>)
    requires Coherent(s, env)
    requires env.attachments.Some? && Fingerprints(s.metadata.attachments, env.files, env.hash).Ok?
  {
    PlannedEvents(LocalIndex(Fingerprints(s.metadata.attachments, env.files, env.hash).value),
                  RemoteIndex(env.attachments.value), env.remoteOrder, env.localOrder)
  }

  /** Everything before the attachment events succeeds: the listing, an
      unambiguous scan, the script's bytes, the create or update, the
      attachment listing and the fingerprints. */
  predicate ReachesPlan(s: Script, env: Env) {
    && env.listing.Some? && ScanHead(env.listing.value, s.metadata.name).Found?
    && env.source.Some?
    && Upsert(s, env.source.value, ScanHead(env.listing.value, s.metadata.name).id, env).1.Upserted?
    && env.attachments.Some? && Fingerprints(s.metadata.attachments, env.files, env.hash).Ok?
  }

  /** The create-or-update step of a push that gets that far. */
  function PushStep(s: Script, env: Env): (step: (Event, UpsertStep))
    requires env.listing.Some? && ScanHead(env.listing.value, s.metadata.name).Found? && env.source.Some?
    ensures !step.1.NilDereference?
  {
    Upsert(s, env.source.value, ScanHead(env.listing.value, s.metadata.name).id, env)
  }

  /** A push that fails before the attachment events reports the step that
      failed, and has issued at most the create or update: a failed listing,
      an ambiguous name with the two ids, the unreadable script file, the
      refused create or update, the failed attachment listing under the
      script's href, or the first unreadable attachment file. */
  lemma PushReportsFailedStep(s: Script, env: Env)
    requires Coherent(s, env)
    ensures env.listing.None? ==> Push(s, env) == PushOutcome([], Err(IndexFailed))
    ensures env.listing.Some? && ScanHead(env.listing.value, s.metadata.name).Clash? ==>
              var c := ScanHead(env.listing.value, s.metadata.name);
              Push(s, env) == PushOutcome([], Err(AmbiguousTarget(c.first, c.second)))
    ensures env.listing.Some? && ScanHead(env.listing.value, s.metadata.name).Found? && env.source.None? ==>
              Push(s, env) == PushOutcome([], Err(SourceUnreadable(s.path)))
    ensures env.listing.Some? && ScanHead(env.listing.value, s.metadata.name).Found? && env.source.Some? ==>
              var step := PushStep(s, env);
              && (step.1.Rejected? ==> Push(s, env) == PushOutcome([step.0], Err(step.1.error)))
              && (step.1.Upserted? && env.attachments.None? ==>
                    Push(s, env) == PushOutcome([step.0], Err(AttachmentIndexFailed(step.1.href + "/attachments"))))
              && (step.1.Upserted? && env.attachments.Some? && Fingerprints(s.metadata.attachments, env.files, env.hash).Err? ==>
                    Push(s, env) == PushOutcome([step.0], Err(Fingerprints(s.metadata.attachments, env.files, env.hash).error)))
  {
  }

  /** A push succeeds exactly when every step before the attachment events
      succeeds and the platform accepts every planned delete and upload; it
      then returns the script's href, having issued the create or update and
      the whole plan. No failure is swallowed. */
  lemma PushSucceedsIffAllStepsSucceed(s: Script, env: Env)
    requires Coherent(s, env)
    ensures Push(s, env).result.Ok? <==>
              ReachesPlan(s, env) && forall i :: 0 <= i < |PushPlan(s, env)| ==> env.accepts(PushPlan(s, env)[i])
    ensures Push(s, env).result.Ok? ==>
              && Push(s, env).result.value == PushStep(s, env).1.href
              && Push(s, env).trace == [PushStep(s, env).0] + PushPlan(s, env)
  {
    if ReachesPlan(s, env) {
      ApplySucceedsIffAllAccepted(PushPlan(s, env), env.accepts);
    }
  }

  /** When everything before the attachment events succeeds, the first
      planned event the platform refuses is the error reported, and it is
      the last event issued. */
  lemma PushReportsFirstRefusal(s: Script, env: Env, k: nat)
    requires Coherent(s, env) && ReachesPlan(s, env)
    requires k < |PushPlan(s, env)| && !env.accepts(PushPlan(s, env)[k])
    requires forall i :: 0 <= i < k ==> env.accepts(PushPlan(s, env)[i])
    ensures Push(s, env) == PushOutcome([PushStep(s, env).0] + PushPlan(s, env)[..k + 1], Err(RemoteFailed(PushPlan(s, env)[k])))
  {
    ApplyStopsAtFirstRefusal(PushPlan(s, env), env.accepts, k);
  }

  /** Two head revisions with the script's name: the push fails as ambiguous
      and issues no create, update, delete or upload. */
  lemma AmbiguousPushIssuesNothing(s: Script, env: Env)
    requires Coherent(s, env)
    requires env.listing.Some?
    requires NoEmptyIds(HeadMatchIds(env.listing.value, s.metadata.name))
    requires |HeadMatchIds(env.listing.value, s.metadata.name)| >= 2
    ensures Push(s, env).trace == []
    ensures var m := HeadMatchIds(env.listing.value, s.metadata.name);
      Push(s, env).result == Err(AmbiguousTarget(m[0], m[1]))
  {
    ScanHeadCounts(env.listing.value, s.metadata.name);
  }

  /** With the script readable, no head revision of the name means a create
      and exactly one means an update of that revision's href. */
  lemma PushCreatesOrUpdates(s: Script, env: Env)
    requires Coherent(s, env)
    requires env.listing.Some? && env.source.Some?
    requires NoEmptyIds(HeadMatchIds(env.listing.value, s.metadata.name))
    ensures var m := HeadMatchIds(env.listing.value, s.metadata.name);
      && (|m| == 0 ==>
            && |Push(s, env).trace| > 0
            && Push(s, env).trace[0] == CreateScript(s.metadata.name, s.metadata.description, env.source.value))
      && (|m| == 1 ==>
            && |Push(s, env).trace| > 0
            && Push(s, env).trace[0] == UpdateScript(ScriptsPrefix + m[0], s.metadata.name, s.metadata.description, env.source.value))
  {
    ScanHeadCounts(env.listing.value, s.metadata.name);
  }

  /** Where each kind of push ends: before the script call, right after it,
      or after running the plan through `Apply`. */
  lemma PushUnfolds(s: Script, env: Env)
    requires Coherent(s, env)
    ensures var o := Push(s, env);
      && (|o.trace| > 0 ==> !o.trace[0].IsAttachmentEvent())
      && (|o.trace| > 1 || o.result.Ok? ==>
            && env.attachments.Some? && Fingerprints(s.metadata.attachments, env.files, env.hash).Ok?
            && o.trace[1..] == Apply(PushPlan(s, env), env.accepts).issued)
      && (o.result.Ok? ==> Apply(PushPlan(s, env), env.accepts).failure.None?)
      && (Fingerprints(s.metadata.attachments, env.files, env.hash).Err? ==> |o.trace| <= 1)
  {
  }

  /** A prefix of a plan keeps the plan's shape. */
  lemma PrefixKeepsShape(issued: seq<Event>, plan: seq<Event>)
    requires issued <= plan
    requires forall i :: 0 <= i < |plan| ==> plan[i].IsAttachmentEvent()
    requires DeletesFirst(plan)
    ensures forall i :: 0 <= i < |issued| ==> issued[i].IsAttachmentEvent()
    ensures DeletesFirst(issued)
  {
    assert forall i :: 0 <= i < |issued| ==> issued[i] == plan[i];
  }

  /** Putting a script call in front of attachment events keeps deletes first. */
  lemma ScriptCallFirst(e: Event, rest: seq<Event>)
    requires !e.IsAttachmentEvent()
    requires DeletesFirst(rest)
    ensures DeletesFirst([e] + rest)
  {
    var t := [e] + rest;
    forall i, j | 0 <= i < j < |t| && t[i].UploadAttachment? ensures !t[j].DeleteAttachment? {
      assert t[i] == rest[i - 1];
      assert t[j] == rest[j - 1];
    }
  }

  /** The part of a plan's realisation a push trace relies on: only
      attachment events, deletes before uploads. */
  lemma PushPlanShape(s: Script, env: Env)
    requires Coherent(s, env)
    requires env.attachments.Some? && Fingerprints(s.metadata.attachments, env.files, env.hash).Ok?
    ensures forall i :: 0 <= i < |PushPlan(s, env)| ==> PushPlan(s, env)[i].IsAttachmentEvent()
    ensures DeletesFirst(PushPlan(s, env))
  {
    var fps := Fingerprints(s.metadata.attachments, env.files, env.hash).value;
    PlanIsRealized(LocalIndex(fps), RemoteIndex(env.attachments.value), env.remoteOrder, env.localOrder);
  }

  /** A script call followed by a prefix of a well-shaped plan. */
  lemma ScriptCallThenPrefix(t: seq<Event>, plan: seq<Event>)
    requires |t| > 0 && !t[0].IsAttachmentEvent()
    requires t[1..] <= plan
    requires forall i :: 0 <= i < |plan| ==> plan[i].IsAttachmentEvent()
    requires DeletesFirst(plan)
    ensures forall i :: 1 <= i < |t| ==> t[i].IsAttachmentEvent()
    ensures DeletesFirst(t)
  {
    var issued := t[1..];
    PrefixKeepsShape(issued, plan);
    assert t == [t[0]] + issued;
    ScriptCallFirst(t[0], issued);
    assert forall i :: 1 <= i < |t| ==> t[i] == issued[i - 1];
  }

  /** The shape of every push: at most one create or update, first; then only
      attachment events, which are a prefix of the plan, deletes before
      uploads; an unreadable attachment stops the push before any attachment
      event; and success means the whole plan was carried out. */
  lemma PushTraceShape(s: Script, env: Env)
    requires Coherent(s, env)
    ensures var o := Push(s, env);
      && (|o.trace| > 0 ==> !o.trace[0].IsAttachmentEvent())
      && (forall i :: 1 <= i < |o.trace| ==> o.trace[i].IsAttachmentEvent())
      && DeletesFirst(o.trace)
      && (Fingerprints(s.metadata.attachments, env.files, env.hash).Err? ==> |o.trace| <= 1)
      && (|o.trace| > 1 ==> env.attachments.Some? && Fingerprints(s.metadata.attachments, env.files, env.hash).Ok?
                             && o.trace[1..] <= PushPlan(s, env))
      && (o.result.Ok? ==> env.attachments.Some? && Fingerprints(s.metadata.attachments, env.files, env.hash).Ok?
                           && o.trace[1..] == PushPlan(s, env)
                           && forall i :: 1 <= i < |o.trace| ==> env.accepts(o.trace[i]))
  {
    var o := Push(s, env);
    PushUnfolds(s, env);
    if |o.trace| > 1 {
      PushPlanShape(s, env);
      ScriptCallThenPrefix(o.trace, PushPlan(s, env));
    }
  }

  /** A successful push removes one attachment per remote-only digest and adds
      one per local-only digest, whatever the listing held. */
  lemma SuccessfulPushEffect(s: Script, env: Env)
    requires Coherent(s, env)
    requires Push(s, env).result.Ok?
    ensures env.attachments.Some? && Fingerprints(s.metadata.attachments, env.files, env.hash).Ok?
    ensures var local := LocalIndex(Fingerprints(s.metadata.attachments, env.files, env.hash).value).Keys;
            var remote := RemoteIndex(env.attachments.value).Keys;
      Effect(Listed(env.attachments.value), Push(s, env).trace[1..])
        == (Listed(env.attachments.value) - multiset(remote - local)) + multiset(local - remote)
  {
    PushTraceShape(s, env);
    var fps := Fingerprints(s.metadata.attachments, env.files, env.hash).value;
    PlanEffect(Listed(env.attachments.value), LocalIndex(fps), RemoteIndex(env.attachments.value), env.remoteOrder, env.localOrder);
  }

  /** On a listing that repeats no digest, a successful push leaves the script
      holding exactly one attachment per declared content's digest. */
  lemma SuccessfulPushConverges(s: Script, env: Env)
    requires Coherent(s, env)
    requires Push(s, env).result.Ok?
    requires env.attachments.Some? ==> Distinct(ListedDigests(env.attachments.value))
    ensures env.attachments.Some? && Fingerprints(s.metadata.attachments, env.files, env.hash).Ok?
    ensures Effect(Listed(env.attachments.value), Push(s, env).trace[1..])
         == multiset(set f | f in Fingerprints(s.metadata.attachments, env.files, env.hash).value :: f.0)
  {
    PushTraceShape(s, env);
    var fps := Fingerprints(s.metadata.attachments, env.files, env.hash).value;
    ReconcileConverges(LocalIndex(fps), env.attachments.value, env.remoteOrder, env.localOrder);
    LocalIndexLaterWins(fps);
  }
}

=== FILE: reconcile.dfy ===
/** Content-addressed reconciliation of a script's attachments: the local
    index (digest to declared name), the remote index (digest to attachment),
    the delete pass and the upload pass, and how the platform carries the
    resulting events out. Attachments are matched by digest only. */
module Reconcile {
  import opened Wrappers
  import opened Entities
  import opened GoText

  // ---------------------------------------------------------------------
  // Indexing: a Go map filled in list order, so a later entry overwrites.

  /** The map a loop `m[k] = v` over the entries leaves behind. */
  function LastWins<K(==), V>(entries: seq<(K, V)>): (m: map<K, V>)
    decreases |entries|
  {
    if |entries| == 0 then map[]
    else LastWins(entries[..|entries| - 1])[entries[|entries| - 1].0 := entries[|entries| - 1].1]
  }

  /** No later entry has the same key as entry `i`. */
  predicate IsLastFor<K(==), V>(entries: seq<(K, V)>, i: int)
    requires 0 <= i < |entries|
  {
    forall j :: i < j < |entries| ==> entries[j].0 != entries[i].0
  }

  lemma {:induction false} LastWinsKeys<K, V>(entries: seq<(K, V)>)
    ensures LastWins(entries).Keys == set e | e in entries :: e.0
    decreases |entries|
  {
    if |entries| > 0 {
      var n := |entries| - 1;
      var init := entries[..n];
      LastWinsKeys(init);
      assert entries == init + [entries[n]];
      assert (set e | e in entries :: e.0) == (set e | e in init :: e.0) + {entries[n].0};
    }
  }

  lemma {:induction false} LastWinsValues<K, V>(entries: seq<(K, V)>)
    ensures forall i :: 0 <= i < |entries| && IsLastFor(entries, i) ==>
              entries[i].0 in LastWins(entries) && LastWins(entries)[entries[i].0] == entries[i].1
    decreases |entries|
  {
    if |entries| > 0 {
      var n := |entries| - 1;
      var init := entries[..n];
      LastWinsValues(init);
      var m := LastWins(entries);
      assert m == LastWins(init)[entries[n].0 := entries[n].1];
      forall i | 0 <= i < |entries| && IsLastFor(entries, i)
        ensures entries[i].0 in m && m[entries[i].0] == entries[i].1
      {
        if i < n {
          assert entries[n].0 != entries[i].0;
          assert init[i] == entries[i];
          assert IsLastFor(init, i);
        }
      }
    }
  }

  /** The keys are exactly the entries' keys, and each key maps to the value
      of its last entry. */
  lemma LastWinsKeepsLastEntry<K, V>(entries: seq<(K, V)>)
    ensures LastWins(entries).Keys == set e | e in entries :: e.0
    ensures forall i :: 0 <= i < |entries| && IsLastFor(entries, i) ==> LastWins(entries)[entries[i].0] == entries[i].1
  {
    LastWinsKeys(entries);
    LastWinsValues(entries);
  }

  /** `toUpload`: digest to declared name, from (digest, name) pairs in
      declaration order. */
  function LocalIndex(fingerprints: seq<(Digest, string)>): (index: map<Digest, string>) {
    LastWins(fingerprints)
  }

  /** `onRightscript`: digest to attachment, from the platform's listing. */
  function RemoteIndex(attachments: seq<RemoteAttachment>): (index: map<Digest, RemoteAttachment>) {
    LastWins(seq(|attachments|, i requires 0 <= i < |attachments| => (attachments[i].digest, attachments[i])))
  }

  predicate IsLastWithDigest(attachments: seq<RemoteAttachment>, i: int)
    requires 0 <= i < |attachments|
  {
    forall j :: i < j < |attachments| ==> attachments[j].digest != attachments[i].digest
  }

  /** The local keys are the declared digests; of two declarations with the
      same content the later name is kept. */
  lemma LocalIndexLaterWins(fingerprints: seq<(Digest, string)>)
    ensures LocalIndex(fingerprints).Keys == set f | f in fingerprints :: f.0
    ensures forall i :: 0 <= i < |fingerprints| && IsLastFor(fingerprints, i) ==>
      LocalIndex(fingerprints)[fingerprints[i].0] == fingerprints[i].1
  {
    LastWinsKeepsLastEntry(fingerprints);
  }

  /** The remote keys are the listed digests; of two listed attachments with
      the same digest the later one is kept. */
  lemma RemoteIndexLaterWins(attachments: seq<RemoteAttachment>)
    ensures RemoteIndex(attachments).Keys == set a | a in attachments :: a.digest
    ensures forall i :: 0 <= i < |attachments| && IsLastWithDigest(attachments, i) ==>
      RemoteIndex(attachments)[attachments[i].digest] == attachments[i]
  {
    var entries := seq(|attachments|, i requires 0 <= i < |attachments| => (attachments[i].digest, attachments[i]));
    LastWinsKeepsLastEntry(entries);
    assert (set e | e in entries :: e.0) == set a | a in attachments :: a.digest by {
      forall a | a in attachments ensures a.digest in (set e | e in entries :: e.0) {
        var i :| 0 <= i < |attachments| && attachments[i] == a;
        assert entries[i] in entries;
      }
    }
    forall i | 0 <= i < |attachments| && IsLastWithDigest(attachments, i)
      ensures RemoteIndex(attachments)[attachments[i].digest] == attachments[i]
    {
      assert IsLastFor(entries, i);
    }
  }

  /** Hashes the declared attachments in order, stopping at the first one that
      cannot be read: the result pairs each declaration's digest with its name. */
  function Fingerprints(names: seq<string>, files: map<string, seq<Byte>>, hash: seq<Byte> -> Digest): (r: Result<seq<(Digest, string)>, Error>)
    ensures r.Ok? <==> forall i :: 0 <= i < |names| ==> names[i] in files
    ensures r.Ok? ==> |r.value| == |names| && forall i :: 0 <= i < |names| ==> r.value[i] == (hash(files[names[i]]), names[i])
    ensures r.Err? ==> exists k :: 0 <= k < |names| && names[k] !in files && r.error == Unreadable(names[k])
                                   && forall i :: 0 <= i < k ==> names[i] in files
    decreases |names|
  {
    if |names| == 0 then Ok([])
    else if names[0] !in files then Err(Unreadable(names[0]))
    else
      match Fingerprints(names[1..], files, hash)
      case Err(e) =>
        assert exists k :: 1 <= k < |names| && names[k] !in files && e == Unreadable(names[k])
                           && forall i :: 0 <= i < k ==> names[i] in files by {
          var k :| 0 <= k < |names[1..]| && names[1..][k] !in files && e == Unreadable(names[1..][k])
                   && forall i :: 0 <= i < k ==> names[1..][i] in files;
          assert forall i :: 1 <= i < k + 1 ==> names[i] == names[1..][i - 1];
        }
        Err(e)
      case Ok(rest) => Ok([(hash(files[names[0]]), names[0])] + rest)
  }

  // ---------------------------------------------------------------------
  // The plan.

  /** The three-way split of digests: remote-only, local-only, on both sides. */
  datatype Plan = Plan(deletes: set<Digest>, uploads: set<Digest>, kept: set<Digest>)

  /** Every remote digest is either deleted or kept, every local digest is
      either uploaded or kept, and no digest is in two parts; equal key sets
      leave nothing to do. */
  function PlanOf(local: map<Digest, string>, remote: map<Digest, RemoteAttachment>): (p: Plan)
    ensures p.deletes + p.kept == remote.Keys
    ensures p.uploads + p.kept == local.Keys
    ensures p.deletes !! p.uploads && p.deletes !! p.kept && p.uploads !! p.kept
    ensures local.Keys == remote.Keys <==> p.deletes == {} && p.uploads == {}
  {
    Plan(remote.Keys - local.Keys, local.Keys - remote.Keys, local.Keys * remote.Keys)
  }

  // ---------------------------------------------------------------------
  // The delete target (a workaround: the attachment's own self link is not
  // usable, so the owning script's link is used instead).

  predicate IsScriptLink(l: Link) {
    "rel" in l && l["rel"] == "right_script"
  }

  function LinkHref(l: Link): (href: string) {
    if "href" in l then l["href"] else ""
  }

  /** The link loop: `acc` is the href kept so far. */
  function ScanLinks(links: seq<Link>, acc: string): (href: string)
    decreases |links|
  {
    if |links| == 0 then acc
    else ScanLinks(links[1..], if IsScriptLink(links[0]) then LinkHref(links[0]) else acc)
  }

  /** The href of the attachment's owning script, "" when it has no such link. */
  function OwningScriptHref(a: RemoteAttachment): (href: string) {
    ScanLinks(a.links, "")
  }

  predicate IsLastScriptLink(links: seq<Link>, i: int)
    requires 0 <= i < |links|
  {
    IsScriptLink(links[i]) && forall j :: i < j < |links| ==> !IsScriptLink(links[j])
  }

  lemma {:induction false} ScanLinksKeepsLast(links: seq<Link>, acc: string)
    ensures (forall i :: 0 <= i < |links| ==> !IsScriptLink(links[i])) ==> ScanLinks(links, acc) == acc
    ensures forall i :: 0 <= i < |links| && IsLastScriptLink(links, i) ==> ScanLinks(links, acc) == LinkHref(links[i])
    decreases |links|
  {
    if |links| > 0 {
      var next := if IsScriptLink(links[0]) then LinkHref(links[0]) else acc;
      ScanLinksKeepsLast(links[1..], next);
      forall i | 0 <= i < |links| && IsLastScriptLink(links, i)
        ensures ScanLinks(links, acc) == LinkHref(links[i])
      {
        if i > 0 {
          assert IsLastScriptLink(links[1..], i - 1);
        } else {
          assert forall j :: 0 <= j < |links[1..]| ==> !IsScriptLink(links[1..][j]) by {
            forall j | 0 <= j < |links[1..]| ensures !IsScriptLink(links[1..][j]) {
              assert links[1..][j] == links[j + 1];
            }
          }
        }
      }
    }
  }

  /** The owning script href is the href of the last "right_script" link, or
      "" when there is none. */
  lemma OwningScriptHrefIsLastScriptLink(a: RemoteAttachment)
    ensures (forall i :: 0 <= i < |a.links| ==> !IsScriptLink(a.links[i])) ==> OwningScriptHref(a) == ""
    ensures forall i :: 0 <= i < |a.links| && IsLastScriptLink(a.links, i) ==> OwningScriptHref(a) == LinkHref(a.links[i])
  {
    ScanLinksKeepsLast(a.links, "");
  }

  const AttachmentsSegment: string := "/attachments/"

  /** The href a delete is sent to. */
  function DeleteTarget(a: RemoteAttachment): (target: string) {
    OwningScriptHref(a) + AttachmentsSegment + IntToDecimal(a.id)
  }

  /** Attachments of the same script with different ids get different targets,
      and the target ends with the decimal id. */
  lemma DeleteTargetsDistinct(a: RemoteAttachment, b: RemoteAttachment)
    requires OwningScriptHref(a) == OwningScriptHref(b)
    ensures DeleteTarget(a) == DeleteTarget(b) <==> a.id == b.id
    ensures HasSuffix(DeleteTarget(a), AttachmentsSegment + IntToDecimal(a.id))
  {
    var prefix := OwningScriptHref(a) + AttachmentsSegment;
    assert DeleteTarget(a) == prefix + IntToDecimal(a.id);
    assert DeleteTarget(b) == prefix + IntToDecimal(b.id);
    if DeleteTarget(a) == DeleteTarget(b) {
      assert (prefix + IntToDecimal(a.id))[|prefix|..] == IntToDecimal(a.id);
      assert (prefix + IntToDecimal(b.id))[|prefix|..] == IntToDecimal(b.id);
      IntToDecimalInjective(a.id, b.id);
    }
  }

  // ---------------------------------------------------------------------
  // The two passes.

  predicate Distinct(order: seq<Digest>) {
    forall i, j :: 0 <= i < j < |order| ==> order[i] != order[j]
  }

  /** `order` lists every key of the map once: one possible Go iteration order. */
  predicate IsEnumeration(order: seq<Digest>, keys: set<Digest>) {
    && (forall i :: 0 <= i < |order| ==> order[i] in keys)
    && (forall d :: d in keys ==> d in order)
    && Distinct(order)
  }

  /** First pass, over the remote index in `order`: delete what is not local. */
  function DeletePass(order: seq<Digest>, local: map<Digest, string>, remote: map<Digest, RemoteAttachment>): (t: seq<Event>)
    requires forall i :: 0 <= i < |order| ==> order[i] in remote
    decreases |order|
  {
    if |order| == 0 then []
    else
      (if order[0] in local then [] else [DeleteAttachment(DeleteTarget(remote[order[0]]), order[0])])
      + DeletePass(order[1..], local, remote)
  }

  /** Second pass, over the local index in `order`: upload what is not remote,
      under the base name of its declared file name. */
  function UploadPass(order: seq<Digest>, local: map<Digest, string>, remote: map<Digest, RemoteAttachment>): (t: seq<Event>)
    requires forall i :: 0 <= i < |order| ==> order[i] in local
    decreases |order|
  {
    if |order| == 0 then []
    else
      (if order[0] in remote then [] else [UploadAttachment(Base(local[order[0]]), order[0])])
      + UploadPass(order[1..], local, remote)
  }

  /** All deletes, then all uploads. */
  function PlannedEvents(local: map<Digest, string>, remote: map<Digest, RemoteAttachment>,
                         remoteOrder: seq<Digest>, localOrder: seq<Digest>): (t: seq<Event>)
    requires IsEnumeration(remoteOrder, remote.Keys) && IsEnumeration(localOrder, local.Keys)
  {
    DeletePass(remoteOrder, local, remote) + UploadPass(localOrder, local, remote)
  }

  function DeletedDigests(events: seq<Event>): (deleted: set<Digest>) {
    set e | e in events && e.DeleteAttachment? :: e.digest
  }

  function UploadedDigests(events: seq<Event>): (uploaded: set<Digest>) {
    set e | e in events && e.UploadAttachment? :: e.digest
  }

  /** No attachment digest is acted on twice. */
  predicate DistinctDigests(events: seq<Event>) {
    forall i, j :: 0 <= i < j < |events| && events[i].IsAttachmentEvent() && events[j].IsAttachmentEvent() ==>
      events[i].digest != events[j].digest
  }

  /** No delete comes after an upload. */
  predicate DeletesFirst(events: seq<Event>) {
    forall i, j :: 0 <= i < j < |events| && events[i].UploadAttachment? ==> !events[j].DeleteAttachment?
  }

  lemma DeletedDigestsOfConcat(a: seq<Event>, b: seq<Event>)
    ensures DeletedDigests(a + b) == DeletedDigests(a) + DeletedDigests(b)
  {
    assert forall e :: e in a + b <==> e in a || e in b;
  }

  lemma UploadedDigestsOfConcat(a: seq<Event>, b: seq<Event>)
    ensures UploadedDigests(a + b) == UploadedDigests(a) + UploadedDigests(b)
  {
    assert forall e :: e in a + b <==> e in a || e in b;
  }

  /** Every event of the delete pass is a delete of a listed digest absent
      from the local index, and no digest is deleted twice. */
  lemma {:induction false} DeletePassEvents(order: seq<Digest>, local: map<Digest, string>, remote: map<Digest, RemoteAttachment>)
    requires forall i :: 0 <= i < |order| ==> order[i] in remote
    requires Distinct(order)
    ensures var t := DeletePass(order, local, remote);
      && (forall i :: 0 <= i < |t| ==> t[i].DeleteAttachment? && t[i].digest in order && t[i].digest !in local
                                       && t[i].target == DeleteTarget(remote[t[i].digest]))
      && DistinctDigests(t)
    decreases |order|
  {
    if |order| > 0 {
      var rest := order[1..];
      assert Distinct(rest);
      DeletePassEvents(rest, local, remote);
      var head := if order[0] in local then [] else [DeleteAttachment(DeleteTarget(remote[order[0]]), order[0])];
      var t := DeletePass(order, local, remote);
      var tr := DeletePass(rest, local, remote);
      assert t == head + tr;
      assert order[0] !in rest;
      forall i | 0 <= i < |t| ensures t[i].DeleteAttachment? && t[i].digest in order && t[i].digest !in local
                                       && t[i].target == DeleteTarget(remote[t[i].digest])
      {
        if i >= |head| {
          assert t[i] == tr[i - |head|];
        }
      }
    }
  }

  /** The delete pass acts on exactly the listed digests absent from the local index. */
  lemma {:induction false} DeletePassDigests(order: seq<Digest>, local: map<Digest, string>, remote: map<Digest, RemoteAttachment>)
    requires forall i :: 0 <= i < |order| ==> order[i] in remote
    ensures DeletedDigests(DeletePass(order, local, remote)) == (set d | d in order) - local.Keys
    decreases |order|
  {
    if |order| > 0 {
      var rest := order[1..];
      DeletePassDigests(rest, local, remote);
      var head := if order[0] in local then [] else [DeleteAttachment(DeleteTarget(remote[order[0]]), order[0])];
      var tr := DeletePass(rest, local, remote);
      assert DeletePass(order, local, remote) == head + tr;
      assert DeletedDigests(head) == if order[0] in local then {} else {order[0]};
      assert (set d | d in order) == {order[0]} + (set d | d in rest);
      DeletedDigestsOfConcat(head, tr);
    }
  }

  lemma DeletePassActs(order: seq<Digest>, local: map<Digest, string>, remote: map<Digest, RemoteAttachment>)
    requires forall i :: 0 <= i < |order| ==> order[i] in remote
    requires Distinct(order)
    ensures var t := DeletePass(order, local, remote);
      && (forall i :: 0 <= i < |t| ==> t[i].DeleteAttachment? && t[i].digest in order && t[i].digest !in local
                                       && t[i].target == DeleteTarget(remote[t[i].digest]))
      && DeletedDigests(t) == (set d | d in order) - local.Keys
      && DistinctDigests(t)
  {
    DeletePassEvents(order, local, remote);
    DeletePassDigests(order, local, remote);
  }

  /** Every event of the upload pass is an upload of a listed digest absent
      from the remote index, and no digest is uploaded twice. */
  lemma {:induction false} UploadPassEvents(order: seq<Digest>, local: map<Digest, string>, remote: map<Digest, RemoteAttachment>)
    requires forall i :: 0 <= i < |order| ==> order[i] in local
    requires Distinct(order)
    ensures var t := UploadPass(order, local, remote);
      && (forall i :: 0 <= i < |t| ==> t[i].UploadAttachment? && t[i].digest in order && t[i].digest !in remote
                                       && t[i].uploadName == Base(local[t[i].digest]))
      && DistinctDigests(t)
    decreases |order|
  {
    if |order| > 0 {
      var rest := order[1..];
      assert Distinct(rest);
      UploadPassEvents(rest, local, remote);
      var head := if order[0] in remote then [] else [UploadAttachment(Base(local[order[0]]), order[0])];
      var t := UploadPass(order, local, remote);
      var tr := UploadPass(rest, local, remote);
      assert t == head + tr;
      assert order[0] !in rest;
      forall i | 0 <= i < |t| ensures t[i].UploadAttachment? && t[i].digest in order && t[i].digest !in remote
                                       && t[i].uploadName == Base(local[t[i].digest])
      {
        if i >= |head| {
          assert t[i] == tr[i - |head|];
        }
      }
    }
  }

  /** An iterated digest that is not local is deleted, at its target. */
  lemma {:induction false} DeletePassDeletes(order: seq<Digest>, local: map<Digest, string>, remote: map<Digest, RemoteAttachment>, d: Digest)
    requires forall i :: 0 <= i < |order| ==> order[i] in remote
    requires d in order && d !in local
    ensures exists i :: 0 <= i < |DeletePass(order, local, remote)| &&
                        DeletePass(order, local, remote)[i] == DeleteAttachment(DeleteTarget(remote[d]), d)
    decreases |order|
  {
    var head := if order[0] in local then [] else [DeleteAttachment(DeleteTarget(remote[order[0]]), order[0])];
    var t := DeletePass(order, local, remote);
    var tr := DeletePass(order[1..], local, remote);
    assert t == head + tr;
    if order[0] == d {
      assert t[0] == DeleteAttachment(DeleteTarget(remote[d]), d);
    } else {
      assert d in order[1..];
      DeletePassDeletes(order[1..], local, remote, d);
      var k :| 0 <= k < |tr| && tr[k] == DeleteAttachment(DeleteTarget(remote[d]), d);
      assert t[|head| + k] == tr[k];
    }
  }

  /** An iterated digest that is not remote is uploaded, under its base name. */
  lemma {:induction false} UploadPassUploads(order: seq<Digest>, local: map<Digest, string>, remote: map<Digest, RemoteAttachment>, d: Digest)
    requires forall i :: 0 <= i < |order| ==> order[i] in local
    requires d in order && d !in remote
    ensures exists i :: 0 <= i < |UploadPass(order, local, remote)| &&
                        UploadPass(order, local, remote)[i] == UploadAttachment(Base(local[d]), d)
    decreases |order|
  {
    var head := if order[0] in remote then [] else [UploadAttachment(Base(local[order[0]]), order[0])];
    var t := UploadPass(order, local, remote);
    var tr := UploadPass(order[1..], local, remote);
    assert t == head + tr;
    if order[0] == d {
      assert t[0] == UploadAttachment(Base(local[d]), d);
    } else {
      assert d in order[1..];
      UploadPassUploads(order[1..], local, remote, d);
      var k :| 0 <= k < |tr| && tr[k] == UploadAttachment(Base(local[d]), d);
      assert t[|head| + k] == tr[k];
    }
  }

  /** The upload pass acts on exactly the listed digests absent from the remote index. */
  lemma {:induction false} UploadPassDigests(order: seq<Digest>, local: map<Digest, string>, remote: map<Digest, RemoteAttachment>)
    requires forall i :: 0 <= i < |order| ==> order[i] in local
    ensures UploadedDigests(UploadPass(order, local, remote)) == (set d | d in order) - remote.Keys
    decreases |order|
  {
    if |order| > 0 {
      var rest := order[1..];
      UploadPassDigests(rest, local, remote);
      var head := if order[0] in remote then [] else [UploadAttachment(Base(local[order[0]]), order[0])];
      var tr := UploadPass(rest, local, remote);
      assert UploadPass(order, local, remote) == head + tr;
      assert UploadedDigests(head) == if order[0] in remote then {} else {order[0]};
      assert (set d | d in order) == {order[0]} + (set d | d in rest);
      UploadedDigestsOfConcat(head, tr);
    }
  }

  lemma UploadPassActs(order: seq<Digest>, local: map<Digest, string>, remote: map<Digest, RemoteAttachment>)
    requires forall i :: 0 <= i < |order| ==> order[i] in local
    requires Distinct(order)
    ensures var t := UploadPass(order, local, remote);
      && (forall i :: 0 <= i < |t| ==> t[i].UploadAttachment? && t[i].digest in order && t[i].digest !in remote
                                       && t[i].uploadName == Base(local[t[i].digest]))
      && UploadedDigests(t) == (set d | d in order) - remote.Keys
      && DistinctDigests(t)
  {
    UploadPassEvents(order, local, remote);
    UploadPassDigests(order, local, remote);
  }

  lemma EnumerationCovers(order: seq<Digest>, keys: set<Digest>)
    requires IsEnumeration(order, keys)
    ensures (set d | d in order) == keys
  {
  }

  /** The planned events carry out exactly the plan: the deleted digests are
      the remote-only ones (each addressed at its owning-script target), the
      uploaded digests are the local-only ones (each under the base of its
      declared name), digests on both sides get no event even when the names
      differ, no digest is acted on twice, and every delete precedes every upload. */
  lemma PlanIsRealized(local: map<Digest, string>, remote: map<Digest, RemoteAttachment>,
                       remoteOrder: seq<Digest>, localOrder: seq<Digest>)
    requires IsEnumeration(remoteOrder, remote.Keys) && IsEnumeration(localOrder, local.Keys)
    ensures var t := PlannedEvents(local, remote, remoteOrder, localOrder);
      && (forall i :: 0 <= i < |t| ==> t[i].IsAttachmentEvent())
      && DeletedDigests(t) == PlanOf(local, remote).deletes
      && UploadedDigests(t) == PlanOf(local, remote).uploads
      && (forall i :: 0 <= i < |t| ==> t[i].digest !in PlanOf(local, remote).kept)
      && (forall i :: 0 <= i < |t| && t[i].DeleteAttachment? ==> t[i].target == DeleteTarget(remote[t[i].digest]))
      && (forall i :: 0 <= i < |t| && t[i].UploadAttachment? ==> t[i].uploadName == Base(local[t[i].digest]))
      && DistinctDigests(t)
      && DeletesFirst(t)
  {
    var d := DeletePass(remoteOrder, local, remote);
    var u := UploadPass(localOrder, local, remote);
    DeletePassActs(remoteOrder, local, remote);
    UploadPassActs(localOrder, local, remote);
    EnumerationCovers(remoteOrder, remote.Keys);
    EnumerationCovers(localOrder, local.Keys);
    ConcatOfPasses(d, u, local, remote);
    assert PlannedEvents(local, remote, remoteOrder, localOrder) == d + u;
  }

  /** Gluing a pass of deletes of remote-only digests to a pass of uploads of
      local-only digests. */
  lemma ConcatOfPasses(d: seq<Event>, u: seq<Event>, local: map<Digest, string>, remote: map<Digest, RemoteAttachment>)
    requires forall i :: 0 <= i < |d| ==> d[i].DeleteAttachment? && d[i].digest in remote && d[i].digest !in local
                                          && d[i].target == DeleteTarget(remote[d[i].digest])
    requires forall i :: 0 <= i < |u| ==> u[i].UploadAttachment? && u[i].digest in local && u[i].digest !in remote
                                          && u[i].uploadName == Base(local[u[i].digest])
    requires DistinctDigests(d) && DistinctDigests(u)
    ensures var t := d + u;
      && (forall i :: 0 <= i < |t| ==> t[i].IsAttachmentEvent())
      && DeletedDigests(t) == DeletedDigests(d)
      && UploadedDigests(t) == UploadedDigests(u)
      && (forall i :: 0 <= i < |t| ==> t[i].digest !in PlanOf(local, remote).kept)
      && (forall i :: 0 <= i < |t| && t[i].DeleteAttachment? ==> t[i].target == DeleteTarget(remote[t[i].digest]))
      && (forall i :: 0 <= i < |t| && t[i].UploadAttachment? ==> t[i].uploadName == Base(local[t[i].digest]))
      && DistinctDigests(t)
      && DeletesFirst(t)
  {
    var t := d + u;
    assert forall i :: |d| <= i < |t| ==> t[i] == u[i - |d|];
    assert forall i :: 0 <= i < |d| ==> t[i] == d[i];
    assert DeletedDigests(t) == DeletedDigests(d) by {
      forall e | e in t && e.DeleteAttachment? ensures e in d {
      }
    }
    assert UploadedDigests(t) == UploadedDigests(u) by {
      forall e | e in t && e.UploadAttachment? ensures e in u {
      }
    }
  }

  // ---------------------------------------------------------------------
  // Carrying the events out.

  /** The events issued, and the one the platform refused (always the last issued). */
  datatype Run = Run(issued: seq<Event>, failure: Option<Event>)

  /** Issues the events in order until the platform refuses one; nothing
      already done is undone. */
  function Apply(events: seq<Event>, accepts: Event -> bool): (r: Run)
    ensures r.issued <= events
    ensures r.failure.None? ==> r.issued == events
    ensures r.failure.Some? ==> |r.issued| > 0 && r.failure.value == r.issued[|r.issued| - 1] && !accepts(r.failure.value)
    ensures forall i :: 0 <= i < |r.issued| && (r.failure.None? || i < |r.issued| - 1) ==> accepts(r.issued[i])
    decreases |events|
  {
    if |events| == 0 then Run([], None)
    else if !accepts(events[0]) then Run([events[0]], Some(events[0]))
    else
      var rest := Apply(events[1..], accepts);
      Run([events[0]] + rest.issued, rest.failure)
  }

  /** Running a plan succeeds exactly when the platform accepts every event. */
  lemma ApplySucceedsIffAllAccepted(events: seq<Event>, accepts: Event -> bool)
    ensures Apply(events, accepts).failure.None? <==> forall i :: 0 <= i < |events| ==> accepts(events[i])
  {
    var r := Apply(events, accepts);
    if r.failure.Some? {
      var m := |r.issued| - 1;
      assert r.issued[m] == events[m];
      assert !accepts(events[m]);
    }
  }

  /** Running a plan whose first refused event is the k-th issues exactly
      the events up to and including it, and reports it. */
  lemma ApplyStopsAtFirstRefusal(events: seq<Event>, accepts: Event -> bool, k: nat)
    requires k < |events| && !accepts(events[k])
    requires forall i :: 0 <= i < k ==> accepts(events[i])
    ensures Apply(events, accepts) == Run(events[..k + 1], Some(events[k]))
  {
    var r := Apply(events, accepts);
    if r.failure.None? {
      assert false;
    }
    var m := |r.issued| - 1;
    assert r.issued[m] == events[m] && !accepts(events[m]);
    if m > k {
      assert false;
    }
    assert m == k;
    assert r.issued == events[..k + 1];
  }

  /** The digests of the listed attachments, in listing order, repeats kept. */
  function ListedDigests(attachments: seq<RemoteAttachment>): (ds: seq<Digest>) {
    seq(|attachments|, i requires 0 <= i < |attachments| => attachments[i].digest)
  }

  /** What a script holds: one copy of a digest per attachment with that content. */
  function Listed(attachments: seq<RemoteAttachment>): (held: multiset<Digest>) {
    multiset(ListedDigests(attachments))
  }

  /** What a script holds after the platform carries out one event: a delete
      removes the one attachment it targets, an upload adds one. */
  function Step(held: multiset<Digest>, e: Event): (after: multiset<Digest>) {
    match e
    case DeleteAttachment(_, d) => held - multiset{d}
    case UploadAttachment(_, d) => held + multiset{d}
    case _ => held
  }

  /** What a script holds after the platform carries out the events. */
  function Effect(held: multiset<Digest>, events: seq<Event>): (after: multiset<Digest>)
    decreases |events|
  {
    if |events| == 0 then held else Effect(Step(held, events[0]), events[1..])
  }

  lemma {:induction false} EffectAppend(held: multiset<Digest>, a: seq<Event>, b: seq<Event>)
    ensures Effect(held, a + b) == Effect(Effect(held, a), b)
    decreases |a|
  {
    if |a| > 0 {
      assert (a + b)[0] == a[0];
      assert (a + b)[1..] == a[1..] + b;
      EffectAppend(Step(held, a[0]), a[1..], b);
      assert Effect(held, a + b) == Effect(Step(held, a[0]), a[1..] + b);
      assert Effect(held, a) == Effect(Step(held, a[0]), a[1..]);
    } else {
      assert a + b == b;
    }
  }

  /** A digest added to a set it is not in adds one copy. */
  lemma AddToSet(x: Digest, s: set<Digest>)
    requires x !in s
    ensures multiset({x} + s) == multiset{x} + multiset(s)
  {
    assert forall y :: multiset({x} + s)[y] == (multiset{x} + multiset(s))[y];
  }

  lemma MinusMinus(held: multiset<Digest>, a: multiset<Digest>, b: multiset<Digest>)
    ensures (held - a) - b == held - (a + b)
  {
    assert forall y :: ((held - a) - b)[y] == (held - (a + b))[y];
  }

  lemma EffectOfOne(held: multiset<Digest>, e: Event)
    ensures Effect(held, [e]) == Step(held, e)
  {
    assert [e][1..] == [];
  }

  lemma SetOfCons(order: seq<Digest>)
    requires |order| > 0
    ensures (set d | d in order) == {order[0]} + (set d | d in order[1..])
  {
    assert order == [order[0]] + order[1..];
  }

  lemma ConsMinus(order: seq<Digest>, keys: set<Digest>)
    requires |order| > 0
    ensures order[0] in keys ==> (set d | d in order) - keys == (set d | d in order[1..]) - keys
    ensures order[0] !in keys ==> (set d | d in order) - keys == {order[0]} + ((set d | d in order[1..]) - keys)
  {
    SetOfCons(order);
  }

  lemma NothingListed(order: seq<Digest>, keys: set<Digest>)
    requires |order| == 0
    ensures multiset((set d | d in order) - keys) == multiset{}
  {
    assert (set d | d in order) - keys == {};
  }

  /** One delete in front of events that remove a set of other digests. */
  lemma DeleteThenRest(held: multiset<Digest>, o: Digest, e: Event, tail: seq<Event>, later: set<Digest>)
    requires e.DeleteAttachment? && e.digest == o && o !in later
    requires Effect(held - multiset{o}, tail) == (held - multiset{o}) - multiset(later)
    ensures Effect(held, [e] + tail) == held - multiset({o} + later)
  {
    calc {
      Effect(held, [e] + tail);
      { EffectAppend(held, [e], tail); EffectOfOne(held, e); }
      Effect(held - multiset{o}, tail);
      { MinusMinus(held, multiset{o}, multiset(later)); AddToSet(o, later); }
      held - multiset({o} + later);
    }
  }


  /** One upload in front of events that add a set of other digests. */
  lemma UploadThenRest(held: multiset<Digest>, o: Digest, e: Event, tail: seq<Event>, later: set<Digest>)
    requires e.UploadAttachment? && e.digest == o && o !in later
    requires Effect(held + multiset{o}, tail) == (held + multiset{o}) + multiset(later)
    ensures Effect(held, [e] + tail) == held + multiset({o} + later)
  {
    calc {
      Effect(held, [e] + tail);
      { EffectAppend(held, [e], tail); EffectOfOne(held, e); }
      Effect(held + multiset{o}, tail);
      { AddToSet(o, later); }
      held + multiset({o} + later);
    }
  }


  /** The first pass removes one copy of each iterated digest that is not local. */
  lemma {:induction false} DeletePassEffect(held: multiset<Digest>, order: seq<Digest>, local: map<Digest, string>, remote: map<Digest, RemoteAttachment>)
    requires forall i :: 0 <= i < |order| ==> order[i] in remote
    requires Distinct(order)
    ensures Effect(held, DeletePass(order, local, remote)) == held - multiset((set d | d in order) - local.Keys)
    decreases |order|
  {
    if |order| > 0 {
      var o, rest := order[0], order[1..];
      assert Distinct(rest);
      var tail := DeletePass(rest, local, remote);
      ConsMinus(order, local.Keys);
      if o in local {
        assert DeletePass(order, local, remote) == tail;
        DeletePassEffect(held, rest, local, remote);
      } else {
        var e := DeleteAttachment(DeleteTarget(remote[o]), o);
        assert o !in rest;
        assert DeletePass(order, local, remote) == [e] + tail;
        DeletePassEffect(held - multiset{o}, rest, local, remote);
        DeleteThenRest(held, o, e, tail, (set d | d in rest) - local.Keys);
      }
    } else {
      NothingListed(order, local.Keys);
    }
  }

  /** The second pass adds one copy of each iterated digest that is not remote. */
  lemma {:induction false} UploadPassEffect(held: multiset<Digest>, order: seq<Digest>, local: map<Digest, string>, remote: map<Digest, RemoteAttachment>)
    requires forall i :: 0 <= i < |order| ==> order[i] in local
    requires Distinct(order)
    ensures Effect(held, UploadPass(order, local, remote)) == held + multiset((set d | d in order) - remote.Keys)
    decreases |order|
  {
    if |order| > 0 {
      var o, rest := order[0], order[1..];
      assert Distinct(rest);
      var tail := UploadPass(rest, local, remote);
      ConsMinus(order, remote.Keys);
      if o in remote {
        assert UploadPass(order, local, remote) == tail;
        UploadPassEffect(held, rest, local, remote);
      } else {
        var e := UploadAttachment(Base(local[o]), o);
        assert o !in rest;
        assert UploadPass(order, local, remote) == [e] + tail;
        UploadPassEffect(held + multiset{o}, rest, local, remote);
        UploadThenRest(held, o, e, tail, (set d | d in rest) - remote.Keys);
      }
    } else {
      NothingListed(order, remote.Keys);
    }
  }

  /** Carrying out the whole plan removes one copy of each remote-only digest
      and adds one copy of each local-only digest, whatever the script held. */
  lemma PlanEffect(held: multiset<Digest>, local: map<Digest, string>, remote: map<Digest, RemoteAttachment>,
                   remoteOrder: seq<Digest>, localOrder: seq<Digest>)
    requires IsEnumeration(remoteOrder, remote.Keys) && IsEnumeration(localOrder, local.Keys)
    ensures Effect(held, PlannedEvents(local, remote, remoteOrder, localOrder))
         == (held - multiset(remote.Keys - local.Keys)) + multiset(local.Keys - remote.Keys)
  {
    var d := DeletePass(remoteOrder, local, remote);
    var u := UploadPass(localOrder, local, remote);
    EnumerationCovers(remoteOrder, remote.Keys);
    EnumerationCovers(localOrder, local.Keys);
    EffectAppend(held, d, u);
    DeletePassEffect(held, remoteOrder, local, remote);
    UploadPassEffect(held - multiset(remote.Keys - local.Keys), localOrder, local, remote);
  }

  /** One copy of each remote digest, minus the remote-only ones, plus the
      local-only ones, is one copy of each local digest. */
  lemma SwapKeys(local: set<Digest>, remote: set<Digest>)
    ensures (multiset(remote) - multiset(remote - local)) + multiset(local - remote) == multiset(local)
  {
    assert forall y :: ((multiset(remote) - multiset(remote - local)) + multiset(local - remote))[y] == multiset(local)[y];
  }

  /** A sequence repeats no element exactly when its multiset is its set. */
  lemma DistinctIsSet(s: seq<Digest>)
    ensures Distinct(s) <==> multiset(s) == multiset(set x | x in s)
  {
    if Distinct(s) {
      DistinctCountsOnce(s);
    } else {
      RepeatCountsTwice(s);
    }
  }

  /** Each element of a sequence without repeats is counted once. */
  lemma {:induction false} DistinctCountsOnce(s: seq<Digest>)
    requires Distinct(s)
    ensures multiset(s) == multiset(set x | x in s)
    decreases |s|
  {
    if |s| > 0 {
      var rest := s[1..];
      assert s == [s[0]] + rest;
      assert Distinct(rest);
      DistinctCountsOnce(rest);
      assert (set x | x in s) == {s[0]} + (set x | x in rest);
      assert s[0] !in rest;
      AddToSet(s[0], set x | x in rest);
    } else {
      assert (set x | x in s) == {};
    }
  }

  /** A repeated element is counted at least twice, so the multiset of a
      sequence with a repeat is not its set. */
  lemma RepeatCountsTwice(s: seq<Digest>)
    requires !Distinct(s)
    ensures multiset(s) != multiset(set x | x in s)
  {
    var i, j :| 0 <= i < j < |s| && s[i] == s[j];
    assert s == s[..j] + s[j..];
    assert s[i] in s[..j] && s[j] in s[j..];
    assert multiset(s)[s[i]] == multiset(s[..j])[s[i]] + multiset(s[j..])[s[i]] >= 2;
  }

  /** The remote index has a key per listed digest; the listing has one
      attachment per key exactly when no digest is listed twice. */
  lemma ListingMatchesIndex(attachments: seq<RemoteAttachment>)
    ensures RemoteIndex(attachments).Keys == set x | x in ListedDigests(attachments)
    ensures Distinct(ListedDigests(attachments)) <==> Listed(attachments) == multiset(RemoteIndex(attachments).Keys)
  {
    var ds := ListedDigests(attachments);
    RemoteIndexLaterWins(attachments);
    assert (set a | a in attachments :: a.digest) == set x | x in ds by {
      forall x | x in ds ensures x in (set a | a in attachments :: a.digest) {
        var i :| 0 <= i < |ds| && ds[i] == x;
        assert attachments[i] in attachments;
      }
      forall a | a in attachments ensures a.digest in ds {
        var i :| 0 <= i < |attachments| && attachments[i] == a;
        assert ds[i] == a.digest;
      }
    }
    DistinctIsSet(ds);
  }

  /** Once every planned event is carried out on a listing that repeats no
      digest, the script holds exactly one attachment per local digest. */
  lemma ReconcileConverges(local: map<Digest, string>, attachments: seq<RemoteAttachment>,
                           remoteOrder: seq<Digest>, localOrder: seq<Digest>)
    requires IsEnumeration(remoteOrder, RemoteIndex(attachments).Keys) && IsEnumeration(localOrder, local.Keys)
    requires Distinct(ListedDigests(attachments))
    ensures Effect(Listed(attachments), PlannedEvents(local, RemoteIndex(attachments), remoteOrder, localOrder))
         == multiset(local.Keys)
  {
    var remote := RemoteIndex(attachments);
    ListingMatchesIndex(attachments);
    PlanEffect(Listed(attachments), local, remote, remoteOrder, localOrder);
    SwapKeys(local.Keys, remote.Keys);
  }

  /** As written, a listing with two attachments of one non-local digest loses
      only the one the index kept: a copy survives the run. */
  lemma DuplicateDigestSurvives(local: map<Digest, string>, attachments: seq<RemoteAttachment>,
                                remoteOrder: seq<Digest>, localOrder: seq<Digest>, d: Digest)
    requires IsEnumeration(remoteOrder, RemoteIndex(attachments).Keys) && IsEnumeration(localOrder, local.Keys)
    requires d !in local && Listed(attachments)[d] >= 2
    ensures Effect(Listed(attachments), PlannedEvents(local, RemoteIndex(attachments), remoteOrder, localOrder))[d]
         == Listed(attachments)[d] - 1
    ensures Effect(Listed(attachments), PlannedEvents(local, RemoteIndex(attachments), remoteOrder, localOrder))
         != multiset(local.Keys)
  {
    var remote := RemoteIndex(attachments);
    ListingMatchesIndex(attachments);
    assert d in remote;
    PlanEffect(Listed(attachments), local, remote, remoteOrder, localOrder);
  }

  /** When the remote already holds the local digests the plan is empty. */
  lemma {:induction false} NothingToDoWhenInSync(local: map<Digest, string>, remote: map<Digest, RemoteAttachment>,
                                                 remoteOrder: seq<Digest>, localOrder: seq<Digest>)
    requires IsEnumeration(remoteOrder, remote.Keys) && IsEnumeration(localOrder, local.Keys)
    requires local.Keys == remote.Keys
    ensures PlannedEvents(local, remote, remoteOrder, localOrder) == []
  {
    DeletePassSkipsLocal(remoteOrder, local, remote);
    UploadPassSkipsRemote(localOrder, local, remote);
  }

  lemma {:induction false} DeletePassSkipsLocal(order: seq<Digest>, local: map<Digest, string>, remote: map<Digest, RemoteAttachment>)
    requires forall i :: 0 <= i < |order| ==> order[i] in remote && order[i] in local
    ensures DeletePass(order, local, remote) == []
    decreases |order|
  {
    if |order| > 0 {
      DeletePassSkipsLocal(order[1..], local, remote);
    }
  }

  lemma {:induction false} UploadPassSkipsRemote(order: seq<Digest>, local: map<Digest, string>, remote: map<Digest, RemoteAttachment>)
    requires forall i :: 0 <= i < |order| ==> order[i] in local && order[i] in remote
    ensures UploadPass(order, local, remote) == []
    decreases |order|
  {
    if |order| > 0 {
      UploadPassSkipsRemote(order[1..], local, remote);
    }
  }

  /** Idempotence: after a complete run on a listing that repeats no digest,
      the listing that results repeats none either, and a second run against
      it (in any iteration order) issues nothing. */
  lemma SecondRunIsEmpty(local: map<Digest, string>, attachments: seq<RemoteAttachment>,
                         remoteOrder: seq<Digest>, localOrder: seq<Digest>,
                         after: seq<RemoteAttachment>, afterOrder: seq<Digest>, localOrder2: seq<Digest>)
    requires IsEnumeration(remoteOrder, RemoteIndex(attachments).Keys) && IsEnumeration(localOrder, local.Keys)
    requires Distinct(ListedDigests(attachments))
    requires Listed(after) == Effect(Listed(attachments), PlannedEvents(local, RemoteIndex(attachments), remoteOrder, localOrder))
    requires IsEnumeration(afterOrder, RemoteIndex(after).Keys) && IsEnumeration(localOrder2, local.Keys)
    ensures Distinct(ListedDigests(after))
    ensures PlannedEvents(local, RemoteIndex(after), afterOrder, localOrder2) == []
  {
    ReconcileConverges(local, attachments, remoteOrder, localOrder);
    ListingMatchesIndex(after);
    assert RemoteIndex(after).Keys == local.Keys by {
      forall x ensures x in RemoteIndex(after).Keys <==> x in local.Keys {
        assert x in ListedDigests(after) <==> x in Listed(after);
      }
    }
    assert multiset(ListedDigests(after)) == multiset(set x | x in ListedDigests(after));
    DistinctIsSet(ListedDigests(after));
    NothingToDoWhenInSync(local, RemoteIndex(after), afterOrder, localOrder2);
  }

  /** As written, the copy of a repeated digest that survives the first run is
      deleted by the second: the run is not idempotent on such a listing. */
  lemma SecondRunDeletesSurvivor(local: map<Digest, string>, attachments: seq<RemoteAttachment>,
                                 remoteOrder: seq<Digest>, localOrder: seq<Digest>, d: Digest,
                                 after: seq<RemoteAttachment>, afterOrder: seq<Digest>, localOrder2: seq<Digest>)
    requires IsEnumeration(remoteOrder, RemoteIndex(attachments).Keys) && IsEnumeration(localOrder, local.Keys)
    requires d !in local && Listed(attachments)[d] >= 2
    requires Listed(after) == Effect(Listed(attachments), PlannedEvents(local, RemoteIndex(attachments), remoteOrder, localOrder))
    requires IsEnumeration(afterOrder, RemoteIndex(after).Keys) && IsEnumeration(localOrder2, local.Keys)
    ensures d in DeletedDigests(PlannedEvents(local, RemoteIndex(after), afterOrder, localOrder2))
  {
    DuplicateDigestSurvives(local, attachments, remoteOrder, localOrder, d);
    ListingMatchesIndex(after);
    assert d in Listed(after);
    assert d in RemoteIndex(after).Keys;
    PlanIsRealized(local, RemoteIndex(after), afterOrder, localOrder2);
  }

  /** A declared file whose content changed: the stale digest is still remote
      and no longer local, the current one is local and not yet remote. The stale
      attachment is deleted before the current content is uploaded under the same
      declared name. */
  lemma ChangedContentIsReplaced(local: map<Digest, string>, remote: map<Digest, RemoteAttachment>,
                                 remoteOrder: seq<Digest>, localOrder: seq<Digest>, stale: Digest, current: Digest)
    requires IsEnumeration(remoteOrder, remote.Keys) && IsEnumeration(localOrder, local.Keys)
    requires stale in remote && stale !in local && current in local && current !in remote
    ensures var t := PlannedEvents(local, remote, remoteOrder, localOrder);
      exists i, j :: 0 <= i < j < |t| && t[i] == DeleteAttachment(DeleteTarget(remote[stale]), stale)
                                      && t[j] == UploadAttachment(Base(local[current]), current)
  {
    var dp := DeletePass(remoteOrder, local, remote);
    var up := UploadPass(localOrder, local, remote);
    assert stale in remoteOrder && current in localOrder;
    DeletePassDeletes(remoteOrder, local, remote, stale);
    UploadPassUploads(localOrder, local, remote, current);
    var i :| 0 <= i < |dp| && dp[i] == DeleteAttachment(DeleteTarget(remote[stale]), stale);
    var j :| 0 <= j < |up| && up[j] == UploadAttachment(Base(local[current]), current);
    var t := PlannedEvents(local, remote, remoteOrder, localOrder);
    assert t == dp + up;
    assert t[i] == dp[i] && t[|dp| + j] == up[j];
  }
}

=== FILE: resolution.dfy ===
/** Exact-name, head-revision resolution of a script, shared by the lookup of
    a NAME_OR_HREF argument and by the create-or-update decision of a push. */
module Resolution {
  import opened Wrappers
  import opened Entities
  import opened Hrefs
  import GoText

  /** The platform's name filter matches partially, so the name is rechecked;
      only the head revision (revision 0) is a candidate. */
  predicate IsHeadMatch(c: ScriptSummary, name: string) {
    c.name == name && c.revision == 0
  }

  /** Outcome of the candidate scan: the id kept ("" when none was kept), or
      the first two head-revision ids that share the name. */
  datatype Scan = Found(id: string) | Clash(first: string, second: string)

  /** The scan loop from the candidate list's front; `found` is the id kept so
      far, with "" standing for "nothing kept yet". */
  function ScanFrom(cands: seq<ScriptSummary>, name: string, found: string): (r: Scan)
    decreases |cands|
  {
    if |cands| == 0 then Found(found)
    else if IsHeadMatch(cands[0], name) then
      if found != "" then Clash(found, cands[0].id) else ScanFrom(cands[1..], name, cands[0].id)
    else ScanFrom(cands[1..], name, found)
  }

  function ScanHead(cands: seq<ScriptSummary>, name: string): (r: Scan) {
    ScanFrom(cands, name, "")
  }

  /** Reference definition: the ids of all head-revision exact-name matches, in listing order. */
  function HeadMatchIds(cands: seq<ScriptSummary>, name: string): (ids: seq<string>)
    decreases |cands|
  {
    if |cands| == 0 then []
    else (if IsHeadMatch(cands[0], name) then [cands[0].id] else []) + HeadMatchIds(cands[1..], name)
  }

  predicate NoEmptyIds(ids: seq<string>) {
    forall i :: 0 <= i < |ids| ==> ids[i] != ""
  }

  lemma {:induction false} ScanFromCounts(cands: seq<ScriptSummary>, name: string, found: string)
    requires NoEmptyIds(HeadMatchIds(cands, name))
    ensures var m := HeadMatchIds(cands, name);
      && (found != "" && |m| == 0 ==> ScanFrom(cands, name, found) == Found(found))
      && (found != "" && |m| > 0 ==> ScanFrom(cands, name, found) == Clash(found, m[0]))
      && (found == "" && |m| == 0 ==> ScanFrom(cands, name, found) == Found(""))
      && (found == "" && |m| == 1 ==> ScanFrom(cands, name, found) == Found(m[0]))
      && (found == "" && |m| >= 2 ==> ScanFrom(cands, name, found) == Clash(m[0], m[1]))
    decreases |cands|
  {
    if |cands| > 0 {
      var m := HeadMatchIds(cands, name);
      var rest := HeadMatchIds(cands[1..], name);
      if IsHeadMatch(cands[0], name) {
        assert m == [cands[0].id] + rest;
        assert NoEmptyIds(rest) by {
          forall i | 0 <= i < |rest| ensures rest[i] != "" {
            assert rest[i] == m[i + 1];
          }
        }
        if found == "" {
          ScanFromCounts(cands[1..], name, cands[0].id);
        }
      } else {
        assert m == rest;
        ScanFromCounts(cands[1..], name, found);
      }
    }
  }

  /** With non-empty ids, the scan decides by the number of head matches:
      none, exactly one (whose id is kept), or an ambiguity naming the first two. */
  lemma ScanHeadCounts(cands: seq<ScriptSummary>, name: string)
    requires NoEmptyIds(HeadMatchIds(cands, name))
    ensures var m := HeadMatchIds(cands, name);
      && (|m| == 0 ==> ScanHead(cands, name) == Found(""))
      && (|m| == 1 ==> ScanHead(cands, name) == Found(m[0]) && m[0] != "")
      && (|m| >= 2 ==> ScanHead(cands, name) == Clash(m[0], m[1]))
  {
    ScanFromCounts(cands, name, "");
  }

  /** Whatever the ids: a kept id is the starting one or a head match's; a
      clash's first id is the starting one or a head match's, and its second
      id is a head match's. */
  lemma {:induction false} ScanFromSound(cands: seq<ScriptSummary>, name: string, found: string)
    ensures ScanFrom(cands, name, found).Found? ==>
      ScanFrom(cands, name, found).id == found ||
      exists i :: 0 <= i < |cands| && IsHeadMatch(cands[i], name) && cands[i].id == ScanFrom(cands, name, found).id
    ensures ScanFrom(cands, name, found).Clash? ==>
      ScanFrom(cands, name, found).first == found ||
      exists i :: 0 <= i < |cands| && IsHeadMatch(cands[i], name) && cands[i].id == ScanFrom(cands, name, found).first
    ensures ScanFrom(cands, name, found).Clash? ==>
      exists j :: 0 <= j < |cands| && IsHeadMatch(cands[j], name) && cands[j].id == ScanFrom(cands, name, found).second
    decreases |cands|
  {
    if |cands| > 0 {
      var next := if IsHeadMatch(cands[0], name) && found == "" then cands[0].id else found;
      if !(IsHeadMatch(cands[0], name) && found != "") {
        ScanFromSound(cands[1..], name, next);
        var r := ScanFrom(cands, name, found);
        assert r == ScanFrom(cands[1..], name, next);
        if r.Found? && r.id != next && r.id != found {
          var i :| 0 <= i < |cands[1..]| && IsHeadMatch(cands[1..][i], name) && cands[1..][i].id == r.id;
          assert cands[i + 1] == cands[1..][i];
        }
        if r.Clash? && r.first != next && r.first != found {
          var i :| 0 <= i < |cands[1..]| && IsHeadMatch(cands[1..][i], name) && cands[1..][i].id == r.first;
          assert cands[i + 1] == cands[1..][i];
        }
        if r.Clash? {
          var j :| 0 <= j < |cands[1..]| && IsHeadMatch(cands[1..][j], name) && cands[1..][j].id == r.second;
          assert cands[j + 1] == cands[1..][j];
        }
      }
    }
  }

  /** `rightscriptParamToHref`: an id or href argument is answered without a
      lookup; a name is looked up in `listing`, the platform's answer to the
      name-filtered index request (None when that request failed). */
  function ParamToHref(param: string, listing: Option<seq<ScriptSummary>>): (r: Result<string, Error>)
    ensures r.Ok? ==> |r.value| >= |ScriptsPrefix| && r.value[..|ScriptsPrefix|] == ScriptsPrefix
  {
    match Classify(param)
    case ById(id) => Ok(ScriptHref(id))
    case ByHref(href) => Ok(href)
    case ByName(name) =>
      match listing
      case None => Err(IndexFailed)
      case Some(cands) =>
        match ScanHead(cands, name)
        case Clash(first, second) => Err(AmbiguousTarget(first, second))
        case Found(id) => if id == "" then Err(NotFound(name)) else Ok(ScriptHref(id))
  }

  /** An id or an href resolves to an href without consulting the listing, and
      resolving that href again gives it back unchanged. */
  lemma DirectParamsNeedNoLookup(param: string, listing: Option<seq<ScriptSummary>>, other: Option<seq<ScriptSummary>>)
    requires GoText.IsDigits(param) || IsScriptHref(param)
    ensures ParamToHref(param, listing) == ParamToHref(param, other)
    ensures ParamToHref(param, listing).Ok?
    ensures IsScriptHref(ParamToHref(param, listing).value)
    ensures ParamToHref(ParamToHref(param, listing).value, other) == ParamToHref(param, listing)
    ensures GoText.IsDigits(param) ==> ParamToHref(param, listing).value == ScriptsPrefix + param
    ensures IsScriptHref(param) ==> ParamToHref(param, listing).value == param
  {
    if GoText.IsDigits(param) {
      ScriptHrefRoundTrip(param);
      DigitsAreNotHrefs(param);
    }
  }

  /** A name argument resolves by the number of head matches (ids non-empty):
      none is "not found", one gives its href, two or more is ambiguous. */
  lemma NameLookupByCount(param: string, cands: seq<ScriptSummary>)
    requires !GoText.IsDigits(param) && !IsScriptHref(param)
    requires NoEmptyIds(HeadMatchIds(cands, param))
    ensures var m := HeadMatchIds(cands, param);
      && (|m| == 0 ==> ParamToHref(param, Some(cands)) == Err(NotFound(param)))
      && (|m| == 1 ==> ParamToHref(param, Some(cands)) == Ok(ScriptsPrefix + m[0]))
      && (|m| >= 2 ==> ParamToHref(param, Some(cands)) == Err(AmbiguousTarget(m[0], m[1])))
    ensures ParamToHref(param, None) == Err(IndexFailed)
  {
    ScanHeadCounts(cands, param);
  }
}

=== FILE: upload.dfy ===
/** The `upload` command: a first pass that completes every script's
    metadata (or stops), then a second pass that pushes the scripts one at a
    time and stops at the first failure. */
module Upload {
  import opened Wrappers
  import opened Entities
  import opened GoText
  import opened ScriptPush

  /** The name derived from the file name under --force, as written:
      `strings.TrimRight(base, ext)` treats the extension as a set of
      characters to strip. */
  function FallbackNameAsWritten(path: string): (name: string) {
    var base := Base(path);
    TrimRight(base, Ext(base))
  }

  /** The name derived from the file name under --force, as intended: the
      base name with its extension removed once. */
  function FallbackName(path: string): (r: string)
    ensures r + Ext(Base(path)) == Base(path)
  {
    var base := Base(path);
    TrimSuffix(base, Ext(base))
  }

  /** As written, the derived name is a prefix of the base name, everything
      stripped is a character of the extension, and the name does not end in
      one; it equals the intended name exactly when the intended name is
      empty or does not end in a character of the extension. */
  lemma FallbackNameAsWrittenShape(path: string)
    ensures var base := Base(path); var r := FallbackNameAsWritten(path);
      && r <= base
      && (r == [] || r[|r| - 1] !in Ext(base))
      && (forall i :: |r| <= i < |base| ==> base[i] in Ext(base))
    ensures var stem := FallbackName(path);
      FallbackNameAsWritten(path) == stem <==> stem == [] || stem[|stem| - 1] !in Ext(Base(path))
  {
    var base := Base(path);
    TrimRightVersusTrimSuffix(base, Ext(base));
  }

  /** Whenever the intended name ends in a character of the extension, the
      name as written is strictly shorter: part of the stem is stripped too. */
  lemma CutsetStripsIntoStem(path: string)
    requires var stem := FallbackName(path); stem != [] && stem[|stem| - 1] in Ext(Base(path))
    ensures |FallbackNameAsWritten(path)| < |FallbackName(path)|
  {
    FallbackNameAsWrittenShape(path);
  }

  /** A concrete case: "hash.sh" yields "ha" instead of "hash". */
  lemma StemEatenByCutset(path: string)
    requires path == "hash.sh"
    ensures FallbackNameAsWritten(path) == "ha"
    ensures FallbackName(path) == "hash"
  {
    HashShIsItsOwnBase();
    HashShExtension();
    HashShTrims();
    assert FallbackNameAsWritten(path) == TrimRight("hash.sh", ".sh");
    assert FallbackName(path) == TrimSuffix("hash.sh", ".sh");
  }

  lemma HashShTrims()
    ensures TrimRight("hash.sh", ".sh") == "ha"
    ensures TrimSuffix("hash.sh", ".sh") == "hash"
  {
    var p := "hash.sh";
    assert "ha" <= p && 'a' !in ".sh";
    assert forall i :: 2 <= i < |p| ==> p[i] in ".sh" by {
      assert p[2] == ".sh"[1] && p[3] == ".sh"[2] && p[4] == ".sh"[0] && p[5] == ".sh"[1] && p[6] == ".sh"[2];
    }
    TrimRightUnique(p, ".sh", "ha");
    assert HasSuffix(p, ".sh");
    assert p[..4] == "hash";
  }

  lemma HashShIsItsOwnBase()
    ensures Base("hash.sh") == "hash.sh"
  {
    var p := "hash.sh";
    assert p[6] !in "/";
    assert TrimRight(p, "/") == p;
    assert forall i :: 0 <= i < |p| ==> p[i] != '/';
    NoSlashIsOwnTail(p);
  }

  lemma HashShExtension()
    ensures Ext("hash.sh") == ".sh"
  {
    var p := "hash.sh";
    assert p[..4] == "hash";
    assert p[..5] == "hash.";
    assert p[..6] == "hash.s";
    assert Ext("hash.") == ".";
    assert Ext("hash.s") == ".s";
  }

  /** Pass one for one file: keep a declared name; without one, fail unless
      --force, in which case the name comes from the file name. */
  function Prepare(path: string, metadata: Metadata, force: bool): (r: Result<Script, Error>)
    ensures r.Err? <==> metadata.name == "" && !force
    ensures r.Err? ==> r.error == MissingMetadata(path)
    ensures r.Ok? ==>
              && r.value.path == path
              && r.value.metadata.description == metadata.description
              && r.value.metadata.attachments == metadata.attachments
              && r.value.metadata.name == (if metadata.name != "" then metadata.name else FallbackName(path))
  {
    if metadata.name == "" then
      if !force then Err(MissingMetadata(path))
      else Ok(Script(path, metadata.(name := FallbackName(path))))
    else Ok(Script(path, metadata))
  }

  /** Pass one over all files: stops at the first file that cannot be prepared. */
  function PrepareAll(inputs: seq<(string, Metadata)>, force: bool): (r: Result<seq<Script>, Error>)
    ensures r.Ok? <==> forall i :: 0 <= i < |inputs| ==> Prepare(inputs[i].0, inputs[i].1, force).Ok?
    ensures r.Ok? ==>
              && |r.value| == |inputs|
              && forall i :: 0 <= i < |inputs| ==> Prepare(inputs[i].0, inputs[i].1, force) == Ok(r.value[i])
    ensures r.Err? ==> r.error.MissingMetadata?
    decreases |inputs|
  {
    if |inputs| == 0 then Ok([])
    else
      match Prepare(inputs[0].0, inputs[0].1, force)
      case Err(e) => Err(e)
      case Ok(script) =>
        match PrepareAll(inputs[1..], force)
        case Err(e) => Err(e)
        case Ok(rest) => Ok([script] + rest)
  }

  /** A refused batch names the first file that has no name (without --force). */
  lemma {:induction false} PrepareAllReportsFirstMissing(inputs: seq<(string, Metadata)>, force: bool, k: nat)
    requires k < |inputs| && inputs[k].1.name == "" && !force
    requires forall i :: 0 <= i < k ==> inputs[i].1.name != ""
    ensures PrepareAll(inputs, force) == Err(MissingMetadata(inputs[k].0))
    decreases k
  {
    if k > 0 {
      var rest := inputs[1..];
      assert rest[k - 1] == inputs[k];
      assert forall i :: 0 <= i < k - 1 ==> rest[i] == inputs[i + 1];
      PrepareAllReportsFirstMissing(rest, force, k - 1);
    }
  }

  /** The events of the whole batch and how it ended (the pushed scripts' hrefs on success). */
  datatype BatchOutcome = BatchOutcome(trace: seq<Event>, result: Result<seq<string>, Error>)

  predicate AllCoherent(scripts: seq<Script>, envs: seq<Env>) {
    |envs| == |scripts| && forall i :: 0 <= i < |scripts| ==> Coherent(scripts[i], envs[i])
  }

  /** What each push would do, script `i` answered by `envs[i]`. */
  function Outcomes(scripts: seq<Script>, envs: seq<Env>): (outs: seq<PushOutcome>)
    requires AllCoherent(scripts, envs)
  {
    seq(|scripts|, i requires 0 <= i < |scripts| && AllCoherent(scripts, envs) => Push(scripts[i], envs[i]))
  }

  /** The traces of the first `k` pushes, one after another. */
  function TracesUpTo(outs: seq<PushOutcome>, k: nat): (trace: seq<Event>)
    requires k <= |outs|
  {
    if k == 0 then [] else TracesUpTo(outs, k - 1) + outs[k - 1].trace
  }

  /** Pushes in order; the first failed push ends the command (the program
      exits), so no later script issues anything. */
  function RunBatch(outs: seq<PushOutcome>): (b: BatchOutcome)
    decreases |outs|
  {
    if |outs| == 0 then BatchOutcome([], Ok([]))
    else
      match outs[0].result
      case Err(e) => BatchOutcome(outs[0].trace, Err(e))
      case Ok(href) =>
        var rest := RunBatch(outs[1..]);
        BatchOutcome(outs[0].trace + rest.trace, if rest.result.Ok? then Ok([href] + rest.result.value) else rest.result)
  }

  /** Pass two. */
  function PushAll(scripts: seq<Script>, envs: seq<Env>): (b: BatchOutcome)
    requires AllCoherent(scripts, envs)
  {
    RunBatch(Outcomes(scripts, envs))
  }

  lemma {:induction false} TracesUpToShift(outs: seq<PushOutcome>, k: nat)
    requires 0 < |outs| && k < |outs|
    ensures TracesUpTo(outs, k + 1) == outs[0].trace + TracesUpTo(outs[1..], k)
    decreases k
  {
    if k > 0 {
      TracesUpToShift(outs, k - 1);
      assert outs[1..][k - 1] == outs[k];
    }
  }

  /** A batch whose pushes all succeed reports every href, in order, and
      issues every push's events in order. */
  lemma {:induction false} RunBatchAllSucceed(outs: seq<PushOutcome>)
    requires forall i :: 0 <= i < |outs| ==> outs[i].result.Ok?
    ensures RunBatch(outs).result.Ok?
    ensures RunBatch(outs).trace == TracesUpTo(outs, |outs|)
    ensures |RunBatch(outs).result.value| == |outs|
    ensures forall i :: 0 <= i < |outs| ==> outs[i].result == Ok(RunBatch(outs).result.value[i])
    decreases |outs|
  {
    if |outs| > 0 {
      var rest := outs[1..];
      assert forall i :: 0 <= i < |rest| ==> rest[i] == outs[i + 1];
      RunBatchAllSucceed(rest);
      TracesUpToShift(outs, |rest|);
      var v := RunBatch(outs).result.value;
      assert v == [outs[0].result.value] + RunBatch(rest).result.value;
      forall i | 0 <= i < |outs| ensures outs[i].result == Ok(v[i]) {
        if i > 0 {
          assert v[i] == RunBatch(rest).result.value[i - 1];
        }
      }
    }
  }

  /** A batch with a failing push reports the first failure's error, and its
      trace ends with that push's events: no later push issues anything. */
  lemma {:induction false} RunBatchStopsAtFirstFailure(outs: seq<PushOutcome>, k: nat)
    requires k < |outs| && outs[k].result.Err?
    requires forall i :: 0 <= i < k ==> outs[i].result.Ok?
    ensures RunBatch(outs).result == Err(outs[k].result.error)
    ensures RunBatch(outs).trace == TracesUpTo(outs, k + 1)
    decreases k
  {
    TracesUpToShift(outs, k);
    if k > 0 {
      var rest := outs[1..];
      assert rest[k - 1] == outs[k];
      assert forall i :: 0 <= i < k - 1 ==> rest[i] == outs[i + 1];
      RunBatchStopsAtFirstFailure(rest, k - 1);
    }
  }

  /** Pushing a batch: it succeeds when every push does, and otherwise stops
      with the first failed push's error, later scripts untouched. */
  lemma PushAllStopsAtFirstFailure(scripts: seq<Script>, envs: seq<Env>, k: nat)
    requires AllCoherent(scripts, envs)
    requires k < |scripts| && Push(scripts[k], envs[k]).result.Err?
    requires forall i :: 0 <= i < k ==> Push(scripts[i], envs[i]).result.Ok?
    ensures PushAll(scripts, envs).result == Err(Push(scripts[k], envs[k]).result.error)
    ensures PushAll(scripts, envs).trace == TracesUpTo(Outcomes(scripts, envs), k + 1)
  {
    RunBatchStopsAtFirstFailure(Outcomes(scripts, envs), k);
  }

  /** Coherence only looks at the declared attachments. */
  lemma CoherentByAttachments(s: Script, t: Script, env: Env)
    requires s.metadata.attachments == t.metadata.attachments
    ensures Coherent(s, env) == Coherent(t, env)
  {
  }

  /** The whole command: prepare everything, then push. `envs[i]` answers
      for the i-th file. */
  function UploadCommand(inputs: seq<(string, Metadata)>, force: bool, envs: seq<Env>): (r: BatchOutcome)
    requires |envs| == |inputs|
    requires forall i :: 0 <= i < |inputs| ==> Coherent(Script(inputs[i].0, inputs[i].1), envs[i])
  {
    match PrepareAll(inputs, force)
    case Err(e) => BatchOutcome([], Err(e))
    case Ok(scripts) =>
      assert AllCoherent(scripts, envs) by {
        forall i | 0 <= i < |scripts| ensures Coherent(scripts[i], envs[i]) {
          assert Ok(scripts[i]) == Prepare(inputs[i].0, inputs[i].1, force);
          CoherentByAttachments(scripts[i], Script(inputs[i].0, inputs[i].1), envs[i]);
        }
      }
      PushAll(scripts, envs)
  }

  /** Once pass one succeeds, which it always does under --force, the
      command is pass two over the prepared scripts. */
  lemma UploadCommandPushesPrepared(inputs: seq<(string, Metadata)>, force: bool, envs: seq<Env>)
    requires |envs| == |inputs|
    requires forall i :: 0 <= i < |inputs| ==> Coherent(Script(inputs[i].0, inputs[i].1), envs[i])
    ensures force ==> PrepareAll(inputs, force).Ok?
    ensures PrepareAll(inputs, force).Ok? ==>
              && AllCoherent(PrepareAll(inputs, force).value, envs)
              && UploadCommand(inputs, force, envs) == PushAll(PrepareAll(inputs, force).value, envs)
  {
    if PrepareAll(inputs, force).Ok? {
      var scripts := PrepareAll(inputs, force).value;
      forall i | 0 <= i < |scripts| ensures Coherent(scripts[i], envs[i]) {
        assert Ok(scripts[i]) == Prepare(inputs[i].0, inputs[i].1, force);
        CoherentByAttachments(scripts[i], Script(inputs[i].0, inputs[i].1), envs[i]);
      }
    }
  }

  /** When every file is prepared and every push succeeds, the command
      reports every script's href in file order, and its events are the
      pushes' events one after another. (The coherence requirement on the
      prepared scripts follows from the others by
      `UploadCommandPushesPrepared`; it is restated so that `Push` may be
      named.) */
  lemma UploadCommandAllSucceed(inputs: seq<(string, Metadata)>, force: bool, envs: seq<Env>)
    requires |envs| == |inputs|
    requires forall i :: 0 <= i < |inputs| ==> Coherent(Script(inputs[i].0, inputs[i].1), envs[i])
    requires PrepareAll(inputs, force).Ok?
    requires AllCoherent(PrepareAll(inputs, force).value, envs)
    requires forall i :: 0 <= i < |inputs| ==> Push(PrepareAll(inputs, force).value[i], envs[i]).result.Ok?
    ensures var scripts := PrepareAll(inputs, force).value;
            var r := UploadCommand(inputs, force, envs);
      && r.result.Ok? && |r.result.value| == |inputs|
      && (forall i :: 0 <= i < |inputs| ==> Push(scripts[i], envs[i]).result == Ok(r.result.value[i]))
      && r.trace == TracesUpTo(Outcomes(scripts, envs), |inputs|)
  {
    UploadCommandPushesPrepared(inputs, force, envs);
    var scripts := PrepareAll(inputs, force).value;
    var outs := Outcomes(scripts, envs);
    assert forall i :: 0 <= i < |outs| ==> outs[i] == Push(scripts[i], envs[i]);
    RunBatchAllSucceed(outs);
  }

  /** When every file is prepared, the first failed push ends the command
      with that push's error, and no later script issues anything. */
  lemma UploadCommandStopsAtFirstFailure(inputs: seq<(string, Metadata)>, force: bool, envs: seq<Env>, k: nat)
    requires |envs| == |inputs|
    requires forall i :: 0 <= i < |inputs| ==> Coherent(Script(inputs[i].0, inputs[i].1), envs[i])
    requires PrepareAll(inputs, force).Ok?
    requires AllCoherent(PrepareAll(inputs, force).value, envs)
    requires k < |inputs| && Push(PrepareAll(inputs, force).value[k], envs[k]).result.Err?
    requires forall i :: 0 <= i < k ==> Push(PrepareAll(inputs, force).value[i], envs[i]).result.Ok?
    ensures var scripts := PrepareAll(inputs, force).value;
            var r := UploadCommand(inputs, force, envs);
      && r.result == Err(Push(scripts[k], envs[k]).result.error)
      && r.trace == TracesUpTo(Outcomes(scripts, envs), k + 1)
  {
    UploadCommandPushesPrepared(inputs, force, envs);
    PushAllStopsAtFirstFailure(PrepareAll(inputs, force).value, envs, k);
  }

  /** Validation precedes mutation: a file with no name and no --force stops
      the command before anything is sent to the platform. */
  lemma MissingNameStopsBeforeAnyCall(inputs: seq<(string, Metadata)>, force: bool, envs: seq<Env>, k: nat)
    requires |envs| == |inputs|
    requires forall i :: 0 <= i < |inputs| ==> Coherent(Script(inputs[i].0, inputs[i].1), envs[i])
    requires !force && k < |inputs| && inputs[k].1.name == ""
    requires forall i :: 0 <= i < k ==> inputs[i].1.name != ""
    ensures UploadCommand(inputs, force, envs).trace == []
    ensures UploadCommand(inputs, force, envs).result == Err(MissingMetadata(inputs[k].0))
  {
    PrepareAllReportsFirstMissing(inputs, force, k);
  }
}

=== FILE: wrappers.dfy ===
/** Failure-carrying values used throughout the model: an optional value and
    a value-or-error result. */
module Wrappers {

  datatype Option<+T> = None | Some(value: T)

  datatype Result<+T, +E> = Ok(value: T) | Err(error: E)
}
